=== FILE: README.md ===
# Cache simulator core, in Dafny

A model of the core of a trace-driven cache simulator. A trace is a sequence of
requests `(key, size)`. Each request is looked up in a caching system, which is
an admission filter in front of a cache. A miss is counted and the object is
offered to the cache. Hit and miss counts are kept per fixed-size segment of the
trace, and byte and object miss ratios are computed over the segments after a
warm-up. Around the simulator sit the tools that read text traces and convert
them to a binary record format or to pickled batches, and a quickselect routine.

One module per source file:

| module | file | what it holds |
|---|---|---|
| `Caches` | `caches.dfy` | FIFO cache (deque as a sequence), LRU cache (linked list as a recency-ordered sequence plus the key map) |
| `Filters` | `filters.dfy` | null, bypass and two-generation Bloom admission filters |
| `CachingSystem` | `caching_system.dfy` | filter + cache, writes filtered |
| `CachingStack` | `caching_stack.dfy` | filter + cache, reads and writes filtered |
| `Simulation` | `simulation.dfy` | segment statistics, miss ratios, the `tick` step and a run over a trace |
| `QuickSelect` | `quickselect.dfy` | Lomuto partition and k-th smallest |
| `TraceToBinary` | `trace_to_binary.dfy` | binary header/record layout, writer and reader |
| `TraceToPickle` | `trace_to_pickle.dfy` | streaming batch writer |
| `Traces` | `traces.dfy` | request, text line parser, iterator counters, trace name |

Helper modules:
- `Wrappers`: `Option` and `Result`.
- `Seqs`: Python `sum` and `xs[start:]`.
- `Text`: `str.split` on one character, `int()` and `str()` for decimal integers.
- `Bytes`: the `struct` codes `Q` and `s`, and UTF-8 encoding.
- `Arith`: facts about Euclidean division.

Python exceptions are `Err` values of a `Result`. Mutable objects are immutable
datatypes, and each operation returns the next state. The simulator's caching
system and the composition modules' filter and cache are function-typed
parameters: the source's interfaces for them do not line up with one another.

## Model

| member | source | states |
|---|---|---|
| Traces.ParseTrLine | traces.py:13-16 | succeeds exactly when there are at least three fields and fields 1 and 2 are integers, and then key and size are their `int()`; errors come in evaluation order: a missing field 1 (`IndexError`), a non-integer field 1, a missing field 2, a non-integer field 2 (`ValueError`) |
| Traces.ParseFormatTrLine | traces.py:13-16 | parsing `"<timestamp> <key> <size>\n"` returns exactly that key and size, for any timestamp without a space |
| Traces.ParseIgnoresTimestamp | traces.py:15 | field 0 never influences the result: lines differing only in the timestamp parse alike |
| Text.JoinSplit | traces.py:14 | `split(" ")` loses nothing: joining the fields with the separator gives the line back |
| Text.SplitJoin | traces.py:14 | splitting separator-free fields joined by the separator gives the fields back |
| Text.ParseShowInt | traces.py:15 | `int(str(n)) == n`, also with a trailing newline, which `int()` strips |
| Traces.Next | traces.py:84-94 | an empty `readline` is exactly the stop case; otherwise the result is the parse of the line read: its error when it fails, else that request, with 1 added to `total_count` and its size to `total_size` |
| Traces.DrainTotals | traces.py:84-94 | after exhaustion `total_count` grew by the number of requests and `total_size` by the sum of their sizes |
| Traces.DrainParses | traces.py:84-94 | the k-th request yielded is the parse of the k-th line from the iterator's position |
| Traces.BaseName | traces.py:102 | the result is the suffix of the path after its last `/` |
| Traces.Stem | traces.py:103 | the result is the prefix of the name before its first `.` |
| Traces.TraceFilename | traces.py:100-103 | the short name contains neither `/` nor `.` |
| Traces.TraceFilenameCharacterised | traces.py:100-103 | the short name is exactly the run of characters after the last `/` up to the next `.`, stated without splitting, in both directions |
| Traces.TraceFilenameIdempotent | traces.py:102-103 | applying the rule to its own result changes nothing |
| Traces.TraceFilenameFixedPoint | traces.py:102-103 | a name without `/` and `.` is its own short name |
| Caches.FifoEvict | caches.py:33-36 | victims come off the right end only (the survivors are a prefix of the deque) and their keys leave the dictionary; afterwards the new size fits, and no fewer pops would have made it fit; nothing is popped when it already fits; popping an empty deque happens only for an object larger than the capacity |
| Caches.FifoPut | caches.py:32-40 | fails exactly when the eviction loop fails, with its error, and never on a duplicate-free deque for an object that fits; the new entry is at the left end, followed by the old deque minus evicted entries, which are the fewest that make room; the dictionary loses the evicted keys and maps the key to the new size; `curr_capacity` stays the deque's size sum and within capacity |
| Caches.FifoPutThenGet | caches.py:32-43 | a successful put is read back by `get` with its size |
| Caches.FifoGet | caches.py:42-43 | `items.get(key, 0)`: a key in the dictionary reads its size, any other key reads 0, whether or not a stale copy of it is still queued |
| Caches.FifoStaleEntryMiss | caches.py:32-43 | capacity 10: after `put(1,5)`, `put(1,5)`, `put(2,5)`, `put(3,0)` key 1 is still at the deque's right end, yet `get(1)` reads 0 |
| Caches.FifoPutEvictedMiss | caches.py:32-43 | after a put, every key its evictions popped, other than the key put, reads 0 |
| Caches.FifoPutKeepsDuplicates | caches.py:38-39 | a put does not check residency: a queued key put again is in the deque twice |
| Caches.FifoEvictTidy | caches.py:33-36 | when the deque holds each key once, eviction never raises for an object that fits and keeps the deque duplicate-free |
| Caches.FifoDuplicateKeyError | caches.py:32-40 | capacity 10: `put(1,5)`, `put(1,5)`, `put(2,10)` raises `KeyError` on key 1 |
| Caches.FifoPutUnique | caches.py:32-40 | corrected put: succeeds exactly when the object fits the capacity; the new entry leads and is followed by the fewest-evicted prefix of the old deque without the key; each key is queued once and the sum invariant holds |
| Caches.FifoPutUniqueThenGet | caches.py:32-43 | with the corrected put the key reads back with its size and appears once in the deque |
| Caches.RemoveNode | caches.py:114-131 | the key leaves the list and every other key stays; when the key is in exactly one node, the result is the list with that node unlinked, the others in order |
| Caches.AddToHead | caches.py:105-112 | the node becomes most recent, after the unchanged list; its key joins the list's keys and its size the list's size total |
| Caches.LruEvict | caches.py:81-90 | victims come from the least-recent end (the survivors are a suffix); afterwards the object fits, and no fewer evictions would have made it fit; nothing is evicted when it already fits; failure only for an object larger than the capacity; map, list and size sum stay consistent |
| Caches.LruPut | caches.py:79-103 | succeeds exactly when `size <= capacity`, else the assertion error; the list, the map and `curr_capacity` stay consistent |
| Caches.Relink | caches.py:92-103 | relinking a key as most recent: the map gets the new size, the list is the old one without the key followed by the new node, and `curr_capacity` stays the list's size sum |
| Caches.LruPutRecency | caches.py:81-103 | the key ends up most recent with its new size, nowhere else in the list, after the unevicted nodes in their old order; nothing is evicted when the object fits, otherwise exactly the fewest least-recent nodes that make room |
| Caches.LruPutWithinCapacity | caches.py:79-103 | with non-negative sizes `curr_capacity` never exceeds the capacity after a put |
| Caches.LruEvictForgetsVictims | caches.py:81-90 | every evicted key is gone from the map |
| Caches.LruGet | caches.py:133-139 | a miss returns 0 and changes nothing; a hit returns the stored size and moves the node to most recent, leaving the others in order |
| Caches.LruPutThenGet | caches.py:79-139 | a key just put is a hit of the size just put |
| Caches.NewLruValid | caches.py:70-74 | the empty cache satisfies the list/map/size invariant |
| Filters.NullShouldFilter | filters.py:11-13 | nothing is ever filtered |
| Filters.BypassShouldFilter | filters.py:16-21 | filtered exactly when the size is strictly above the threshold |
| Filters.BypassBySizeOnly | filters.py:20-21 | the bypass decision ignores the key, is monotone in the size, and lets a size equal to the threshold through |
| Filters.Exists | filters.py:48-56 | raises exactly when no generation is current; always answers false; a full current generation hands over to the other, emptied one |
| Filters.Put | filters.py:44-46 | `put` is a no-op: the filter is unchanged |
| Filters.BloomShouldFilter | filters.py:38-42 | raises exactly when no generation is current; otherwise the request is filtered (`True`) and the state is the one `exists` leaves, followed by the no-op `put`; the generations never grow |
| Filters.BloomAlwaysFilters | filters.py:38-56 | with a current generation every request of a run is filtered, none raises, and the generations never grow |
| Filters.BloomUninitialised | filters.py:30-36 | the constructed filter raises on its first `should_filter` |
| Filters.NewBloomInitialised | filters.py:30-36 | corrected constructor: generation 0 current, both generations empty |
| Filters.BloomInitialisedNeverFails | filters.py:30-56 | with the corrected constructor no request of any run raises |
| Filters.ShouldFilter | filters.py:5-56 | the interface's dispatch: null and bypass never fail and keep no state; Bloom fails exactly when uninitialised and otherwise answers exactly what `BloomFilter.should_filter` answers, with the state it leaves |
| CachingSystem.Put | caching_system.py:23-26 | the filter is asked once; rejection returns `False` and leaves the cache alone; otherwise the request is admitted and `None` returned |
| CachingSystem.Get | caching_system.py:28-34 | reads bypass the filter and return the cache's answer |
| CachingSystem.PutAllAdmitsPassed | caching_system.py:23-26 | after any run of puts the cache is the one that admitted exactly the requests the filter passed, in order |
| CachingSystem.GetsLeaveFilter | caching_system.py:28-34 | any run of reads leaves the filter unchanged |
| CachingStack.Put | caching_stack.py:23-27 | `True` exactly when the filter passes the request, and then the cache's `put` ran; `False` leaves the cache alone |
| CachingStack.Get | caching_stack.py:29-37 | a filtered read returns `None` without touching the cache; otherwise the cache's answer |
| CachingStack.MissThenPutAsksTwice | caching_stack.py:23-37 | a read that misses followed by a put asks the filter twice about the same request |
| Simulation.RecordSegment | simulation.py:23-31 | the open counters become the last entries of the four lists, earlier entries unchanged, and restart at zero; each list's sum plus its open counter is unchanged |
| Simulation.UpdateMiss | simulation.py:33-35 | one more miss and its bytes; nothing else changes |
| Simulation.UpdateReq | simulation.py:37-39 | one more request and its bytes; nothing else changes |
| Simulation.Ratio | simulation.py:41-45 | a division raises exactly on a zero denominator; otherwise the quotient times the denominator is the numerator |
| Simulation.WarmupStart | simulation.py:49 | the warm-up start index is the floor of `n * warmup / 100`, lies within the list, before its end when non-empty, and is 0 without warm-up |
| Simulation.Bmr | simulation.py:47-50 | raises the assertion error exactly for a warm-up outside `[0, 100)` |
| Simulation.Omr | simulation.py:52-55 | raises the assertion error exactly for a warm-up outside `[0, 100)` |
| Simulation.WarmRatios | simulation.py:47-55 | for a warm-up in `[0, 100)` both ratios are the miss sum over the total sum of the segments from the floor of `n * warmup / 100` on, and a zero total raises `ZeroDivisionError` |
| Simulation.NoWarmupCoversAll | simulation.py:47-55 | warm-up 0 takes the ratio of the sums over every recorded segment |
| Simulation.RatiosAreFractions | simulation.py:47-55 | when each segment's misses lie between 0 and its totals, both ratios lie in `[0, 1]` |
| Simulation.Tick | simulation.py:108-128 | end of stream records the open segment and answers false; otherwise the request is looked up, a miss is `put` and reported to the miss callback, a hit to the hit callback; `index % 0` raises; at a boundary the ratios for the log call are evaluated, so a segment without bytes raises `ZeroDivisionError` before it is recorded, and otherwise the segment is recorded |
| Simulation.LogRatios | simulation.py:41-45 | `curr_bmr()` then `curr_omr()`: `ZeroDivisionError` exactly when the open segment has no bytes or no requests, otherwise the two miss ratios |
| Simulation.RunSegments | simulation.py:108-128 | over any trace with segment length `w > 0` a run fails, with `ZeroDivisionError`, exactly when a segment closed at a boundary holds no bytes; otherwise it records `(n-1)/w + 1` segments (one for an empty trace), the first full one holding `w + 1` requests and later full ones `w`; counts sum to `n` and bytes to the trace's total; one callback per request, in order |
| Simulation.RunWindows | simulation.py:108-128 | with non-negative sizes a run succeeds under the same condition as in `RunSegments`, and its segments are also sound: misses never exceed totals in any segment |
| Simulation.PositiveSizesRun | simulation.py:108-128 | with positive sizes and `w > 0` a run never fails |
| Simulation.RunEmptySegmentFails | simulation.py:108-128 | when the first `w + 1` requests have size 0 the run raises `ZeroDivisionError`, from logging the first segment |
| Simulation.RunZeroWindow | simulation.py:119 | segment length 0 raises `ZeroDivisionError` at the second request |
| Simulation.TickAsWritten | simulation.py:119-123 | at a segment boundary the step raises before recording the segment |
| Simulation.RunAsWrittenFails | simulation.py:119-123 | as written, any run over more than `w` requests raises at request index `w` |
| QuickSelect.Partition | quickselect.py:31-39 | the pivot `arr[r]` lands at the returned index `l <= p <= r`; elements before it are at most the pivot and elements after it are larger; the slice is permuted and everything outside it unchanged |
| QuickSelect.KthSmallest | quickselect.py:1-24 | for `1 <= k <= r-l+1` the result is the k-th smallest of the original slice, the slice is permuted and the rest unchanged; otherwise `NameError` (the fallback `return sys.maxsize` names an unimported module) with the list untouched; recursion on strictly smaller slices |
| QuickSelect.KthUnique | quickselect.py:1-24 | the k-th smallest element is unique |
| QuickSelect.SortedKth | quickselect.py:1-24 | in a sorted slice the k-th smallest is at index `k-1`, which is what `IsKth` means on sorted input |
| QuickSelect.CountPermutation | quickselect.py:34-38 | the rank counts depend only on the multiset of the slice, so permuting does not change the answer |
| Bytes.FromLittleEndianOf | trace_to_binary.py:8-12 | decoding little-endian bytes of a number gives the number back |
| Bytes.LittleEndianOf | trace_to_binary.py:8-12 | encoding the decoded value gives the bytes back: the encoding is a bijection |
| Bytes.U64RoundTrip | trace_to_binary.py:8-12 | a `Q` field decodes to the value packed into it |
| Bytes.Fit | trace_to_binary.py:12 | an `s` field holds the key bytes cut to the key size or zero-padded up to it |
| Bytes.Utf8Char | trace_to_binary.py:47 | one byte below U+0080, two below U+0800, three below U+10000, four above, each in both directions; the lead byte is in the range of its length class and every continuation byte in `0x80..0xBF`; characters below 128 encode to themselves |
| Bytes.Utf8CharDecode | trace_to_binary.py:47 | decoding the bytes of one character gives its code point back |
| TraceToBinary.NewWriter | trace_to_binary.py:17-31 | `int` keys get code `Q`, `str` keys code `s`, other types raise; a negative key size raises `struct.error` |
| TraceToBinary.Header | trace_to_binary.py:33-38 | the header is 9 bytes; it raises exactly when the key size does not fit in a u64 |
| TraceToBinary.ParseRow | trace_to_binary.py:40-50 | succeeds exactly when field 0 and field 2 are integers, there are at least three fields and, for code `Q`, field 1 is an integer; errors come in evaluation order: field 0, a missing field, field 2, field 1; timestamp from field 0, size from field 2, key from field 1 (`int()` for `Q`, UTF-8 bytes for `s`) |
| TraceToBinary.PackRow | trace_to_binary.py:51-54 | packs exactly when timestamp and size fit a u64 and, for code `Q`, the key size is 1 and the key fits a u64; the record has the fixed record length |
| TraceToBinary.Dump | trace_to_binary.py:56-60 | the output starts with the header; a key size beyond u64 writes nothing |
| TraceToBinary.ReadHeader | trace_to_binary.py:65-73 | fewer than 9 bytes raises; a decoded layout re-encodes to the 9 header bytes read |
| TraceToBinary.ReadRecordsWhole | trace_to_binary.py:75-79 | the reader raises exactly when the body is not a whole number of records, and yields one tuple per record |
| TraceToBinary.UnpackPackRow | trace_to_binary.py:40-54 | unpacking a packed record gives back timestamp, size and key |
| TraceToBinary.DumpThenRead | trace_to_binary.py:56-79 | reading a dumped file yields exactly one tuple per line the writer packed, in order, and raises nothing, even after a failed line |
| TraceToBinary.DumpCompleteness | trace_to_binary.py:56-60 | a dump stops early exactly when a line fails to pack |
| TraceToBinary.PackedRowsParse | trace_to_binary.py:33-60 | the packed rows are the parses of the leading lines of the input, in order |
| TraceToBinary.IntKeyRoundTrip | trace_to_binary.py:87-94 | for `int` keys of key size 1, a complete dump reads back every line's timestamp, size and key |
| TraceToPickle.SDump | trace_to_pickle.py:11-19 | batches concatenate to the input in order, none is empty, all but the last hold exactly `buff_size` and the count is `ceil(n / buff_size)`; a non-positive `buff_size` gives one batch; an exception from the iterable keeps only the full batches emitted before it |
| TraceToPickle.BatchingUnique | trace_to_pickle.py:11-19 | the batching rule determines the batches completely |
| TraceToPickle.DoPickle | trace_to_pickle.py:27-32 | with every line parsed, the batches follow the `s_dump` rule and hold each line's request in file order; otherwise the first failing line's error is raised, after the full batches of the requests before it |

## Left out

- Files, `open`/`readline`/`close`, `pickle.dumps` bytes and `print`: traces are sequences of lines and outputs are byte sequences or batch lists.
- `Simulation.run` timing, `get_state`, the `id`/`__repr__` strings and `logger.py`: no logic beyond formatting.
- `Simulation.tick` calls `iter()` on the trace iterator every step. For the file-backed iterator that reopens the file, so each step would re-read the first line. The model feeds the trace to `tick` as a sequence, one request per step.
- Simulation.Tick: models the evidently intended step, whose boundary log call takes its four arguments: the ratios are still evaluated, so a segment without bytes still raises `ZeroDivisionError`, and otherwise the segment is recorded. The as-written boundary call is `TickAsWritten` (see Findings). What `log_window` writes is not modelled.
- Float division in `curr_bmr`/`curr_omr`/`bmr`/`omr` is exact `real` division. `int(len * warmup / 100)` is integer division, which agrees for the non-negative operands reachable after the assertion.
- A zero denominator after warm-up is the `ZeroDivision` error value rather than a Python exception; `WarmRatios` states which segments each ratio sums.
- `CacheRequest`'s `isinstance(size, int)` assertion: sizes are `int` by typing.
- Text.ParseInt: Python's `int()` also accepts underscores between digits, non-ASCII digits and non-ASCII whitespace (U+0085, U+00A0, U+2028 and the like). The model strips only the ASCII whitespace `str.isspace()` accepts (space, U+0009 to U+000D, U+001C to U+001F) and accepts an optional sign and ASCII digits.
- Negative Python indices (`arr[-1]`, `split_line[-1]`) are not modelled: `quickselect` requires `0 <= l` and `r < len(arr)`.
- TraceToBinary.NewWriter: key sizes so large that `struct.calcsize` overflows are not modelled; any non-negative size is accepted.
- TraceToBinary.ReadHeader: `struct.calcsize` on the rebuilt format raises when the header's key size makes the record too large for the platform; the model accepts every key size below 2^64.
- TraceToBinary.ReadHeader: a header naming a struct code other than `Q`/`s` is reported as unsupported. Python would build a format with that code, and some codes are valid.
- Bytes.Utf8: characters are Unicode scalar values, so a lone surrogate, on which `str.encode("utf-8")` raises `UnicodeEncodeError`, cannot occur in the model.
- TraceToBinary.Read: the `s` key comes back as the padded bytes the file holds; decoding it to text is not part of the reader.
- The LRU cache's `value` argument and the FIFO/LRU `get` value slot: the source ignores or returns `None` for them.
- `RandomCache`, `run.py`, the Bloom filter experiment scripts, `profile.py`, `constants.py` and the test harness: stubs, drivers or tools with no logic of the core.

## Findings

| source | as written | input that shows it | evidently intended | confidence | as-written member | corrected member |
|---|---|---|---|---|---|---|
| caches.py:32-40 | `put` does not check whether the key is already queued, so the deque can hold a key twice; evicting the second copy runs `del self.items[key]` on a missing key | capacity 10: `put(1,5)`, `put(1,5)`, `put(2,10)` raises `KeyError: 1` | a re-put replaces the queued entry, so each key is queued once | high, not executed | Caches.FifoDuplicateKeyError | Caches.FifoPutUnique |
| filters.py:30-56 | `__init__` never assigns `_current_filter`, which `exists` reads | `BloomFilter(m, k).should_filter(key, size)` raises `AttributeError` | generation 0 is current from the start | high, not executed | Filters.BloomUninitialised | Filters.NewBloomInitialised |
| simulation.py:119-123 | at a segment boundary `log_window` is called with five arguments but takes four (logger.py), after `curr_bmr()`, which divides by the segment's bytes | any trace longer than `ordinal_window` raises at index `ordinal_window`: `TypeError`, or `ZeroDivisionError` if that segment's bytes are 0 | the segment's ratios are logged and the segment recorded, and the run continues; a segment without bytes still raises `ZeroDivisionError` in `curr_bmr()` | medium, not executed | Simulation.RunAsWrittenFails | Simulation.Tick |

=== FILE: arith.dfy ===
/** Facts about Euclidean division that the windowing and record-splitting
    arguments need. */
module Arith {
  /** Quotient and remainder are unique. */
  lemma DivModUnique(a: int, n: int, q: int, r: int)
    requires n > 0 && a == q * n + r && 0 <= r < n
    ensures a / n == q && a % n == r
  {
    var d := a / n - q;
    assert d * n == r - a % n by {
      assert a == (a / n) * n + a % n;
      assert (a / n) * n == q * n + d * n;
    }
    if d > 0 {
      MulAtLeast(d, n);
    } else if d < 0 {
      MulAtLeast(-d, n);
    }
  }

  lemma MulAtLeast(d: int, n: int)
    requires d >= 1 && n > 0
    ensures d * n >= n
  {
    assert d * n == (d - 1) * n + n;
    assert (d - 1) * n >= 0;
  }

  /** Taking `n` off `a` takes one off the quotient and keeps the remainder. */
  lemma ShiftDivMod(a: int, n: int)
    requires 0 < n <= a
    ensures (a - n) % n == a % n && (a - n) / n + 1 == a / n
  {
    var q, r := (a - n) / n, (a - n) % n;
    assert a - n == q * n + r;
    assert a == (q + 1) * n + r;
    DivModUnique(a, n, q + 1, r);
  }

  /** Whole multiples of `n` up to `a` stay within `a`. */
  lemma DivMulBelow(a: int, n: int)
    requires a >= 0 && n > 0
    ensures 0 <= (a / n) * n <= a
  {
    assert a == (a / n) * n + a % n;
  }

  lemma DivModBelow(a: int, n: int)
    requires 0 <= a < n
    ensures a % n == a && a / n == 0
  {
    DivModUnique(a, n, 0, a);
  }
}

=== FILE: bytes.dfy ===
/** The byte-level pieces of Python's `struct` module that the binary trace
    format uses: the `Q` code (unsigned 64-bit integer, little-endian under the
    `<` prefix), the `s` code (a fixed-length byte field) and `str.encode("utf-8")`. */
module Bytes {
  type byte = x: int | 0 <= x < 256

  /** `256^width`: the number of values a `width`-byte field can hold. */
  function Pow256(width: nat): (p: nat)
    ensures p >= 1
  {
    if width == 0 then 1 else 256 * Pow256(width - 1)
  }

  /** Exclusive upper bound of the `Q` code. */
  const U64_LIMIT: nat := 0x1_0000_0000_0000_0000

  lemma Pow256Eight()
    ensures Pow256(8) == U64_LIMIT
  {
  }

  /** `n` as `width` little-endian bytes: least significant byte first. */
  function LittleEndian(n: nat, width: nat): (r: seq<byte>)
    requires n < Pow256(width)
    ensures |r| == width
  {
    if width == 0 then []
    else
      assert n / 256 < Pow256(width - 1);
      [n % 256] + LittleEndian(n / 256, width - 1)
  }

  /** The value of little-endian bytes. */
  function FromLittleEndian(bs: seq<byte>): (n: nat)
    ensures n < Pow256(|bs|)
  {
    if |bs| == 0 then 0 else bs[0] + 256 * FromLittleEndian(bs[1..])
  }

  /** Decoding what was encoded returns the number. */
  lemma {:induction false} FromLittleEndianOf(n: nat, width: nat)
    requires n < Pow256(width)
    ensures FromLittleEndian(LittleEndian(n, width)) == n
  {
    if width > 0 {
      var bs := LittleEndian(n, width);
      assert bs[1..] == LittleEndian(n / 256, width - 1);
      FromLittleEndianOf(n / 256, width - 1);
    }
  }

  /** Encoding what was decoded returns the bytes: the encoding is a bijection
      between `[0, 256^width)` and `width`-byte strings. */
  lemma {:induction false} LittleEndianOf(bs: seq<byte>)
    ensures LittleEndian(FromLittleEndian(bs), |bs|) == bs
  {
    if |bs| > 0 {
      var n := FromLittleEndian(bs);
      var rest := FromLittleEndian(bs[1..]);
      assert n % 256 == bs[0] && n / 256 == rest;
      LittleEndianOf(bs[1..]);
    }
  }

  /** `struct.pack("<Q", n)`, defined for `0 <= n < 2^64`. */
  function U64(n: nat): (r: seq<byte>)
    requires n < U64_LIMIT
    ensures |r| == 8
  {
    Pow256Eight();
    LittleEndian(n, 8)
  }

  /** `struct.unpack("<Q", bs)`. */
  function FromU64(bs: seq<byte>): (n: nat)
    requires |bs| == 8
    ensures n < U64_LIMIT
  {
    Pow256Eight();
    FromLittleEndian(bs)
  }

  lemma U64RoundTrip(n: nat)
    requires n < U64_LIMIT
    ensures FromU64(U64(n)) == n
  {
    Pow256Eight();
    FromLittleEndianOf(n, 8);
  }

  /** A `{width}s` field: the bytes cut to `width`, or padded with zero bytes up to it. */
  function Fit(bs: seq<byte>, width: nat): (r: seq<byte>)
    ensures |r| == width
    ensures forall i :: 0 <= i < width ==> r[i] == (if i < |bs| then bs[i] else 0)
  {
    if |bs| >= width then bs[..width] else bs + seq(width - |bs|, _ => 0)
  }

  /** `c.encode("utf-8")` for one Unicode scalar value. */
  function Utf8Char(c: char): (r: seq<byte>)
    ensures 1 <= |r| <= 4
    ensures (c as int < 0x80) <==> |r| == 1
    ensures (0x80 <= c as int < 0x800) <==> |r| == 2
    ensures (0x800 <= c as int < 0x1_0000) <==> |r| == 3
    ensures (0x1_0000 <= c as int) <==> |r| == 4
    ensures c as int < 0x80 ==> r == [c as int]
    ensures |r| == 2 ==> 0xC2 <= r[0] <= 0xDF
    ensures |r| == 3 ==> 0xE0 <= r[0] <= 0xEF
    ensures |r| == 4 ==> 0xF0 <= r[0] <= 0xF4
    ensures forall i :: 1 <= i < |r| ==> 0x80 <= r[i] <= 0xBF
  {
    var n := c as int;
    if n < 0x80 then [n]
    else if n < 0x800 then [0xC0 + n / 0x40, 0x80 + n % 0x40]
    else if n < 0x1_0000 then [0xE0 + n / 0x1000, 0x80 + (n / 0x40) % 0x40, 0x80 + n % 0x40]
    else [0xF0 + n / 0x4_0000, 0x80 + (n / 0x1000) % 0x40, 0x80 + (n / 0x40) % 0x40, 0x80 + n % 0x40]
  }

  /** The code point that a one- to four-byte UTF-8 sequence spells: the payload
      bits of the lead byte followed by six bits from each continuation byte. */
  function DecodeUtf8Char(bs: seq<byte>): int
    requires 1 <= |bs| <= 4
  {
    if |bs| == 1 then bs[0]
    else if |bs| == 2 then (bs[0] as int - 0xC0) * 0x40 + (bs[1] as int - 0x80)
    else if |bs| == 3 then
      (bs[0] as int - 0xE0) * 0x1000 + (bs[1] as int - 0x80) * 0x40 + (bs[2] as int - 0x80)
    else
      (bs[0] as int - 0xF0) * 0x4_0000 + (bs[1] as int - 0x80) * 0x1000
      + (bs[2] as int - 0x80) * 0x40 + (bs[3] as int - 0x80)
  }

  /** Decoding the bytes of one character gives the character back. */
  lemma Utf8CharDecode(c: char)
    ensures DecodeUtf8Char(Utf8Char(c)) == c as int
  {
    var n := c as int;
    assert n == (n / 0x40) * 0x40 + n % 0x40;
    assert n / 0x40 == (n / 0x1000) * 0x40 + (n / 0x40) % 0x40;
    assert n / 0x1000 == (n / 0x4_0000) * 0x40 + (n / 0x1000) % 0x40;
  }

  /** `s.encode("utf-8")`. */
  function Utf8(s: string): (r: seq<byte>)
    ensures |s| <= |r| <= 4 * |s|
  {
    if |s| == 0 then [] else Utf8Char(s[0]) + Utf8(s[1..])
  }

  /** Text of code points below 128 encodes to one byte per character, unchanged. */
  lemma {:induction false} Utf8Ascii(s: string)
    requires forall i :: 0 <= i < |s| ==> s[i] as int < 0x80
    ensures Utf8(s) == seq(|s|, i requires 0 <= i < |s| => s[i] as int)
  {
    if |s| > 0 {
      Utf8Ascii(s[1..]);
    }
  }
}

=== FILE: caches.dfy ===
/** The two eviction caches: a FIFO cache (a deque of `(key, size)` plus a
    key-to-size dictionary) and an LRU cache (a key-to-node map plus a doubly
    linked recency list). The linked list is modelled by the sequence of its
    nodes from `least_recent` to `most_recent`; the deque by the sequence of its
    entries from the left end to the right end. Sizes are Python integers. */
module Caches {
  import opened Wrappers

  /** A queue entry or list node: a key and the size stored with it. */
  datatype Entry = Entry(key: int, size: int)

  /** The exceptions the caches raise. */
  datatype CacheError =
    | PopFromEmpty          // `IndexError`: `deque.pop()` on an empty deque
    | MissingKey(key: int)  // `KeyError`: `del items[key]` for an absent key
    | TooLarge(size: int)   // `AssertionError`: LRU `put` of an object larger than the capacity
    | NoVictim              // `AttributeError`: eviction from an empty list

  /** Sum of the sizes of `es`. */
  function SumSizes(es: seq<Entry>): int
  {
    if |es| == 0 then 0 else es[0].size + SumSizes(es[1..])
  }

  /** The keys occurring in `es`. */
  function Keys(es: seq<Entry>): set<int>
  {
    if |es| == 0 then {} else {es[0].key} + Keys(es[1..])
  }

  /** The entries of `es` whose key is not `key`, in their order. */
  function Without(es: seq<Entry>, key: int): (r: seq<Entry>)
    ensures Keys(r) == Keys(es) - {key}
    ensures key !in Keys(es) ==> r == es
  {
    if |es| == 0 then []
    else
      var rest := Without(es[1..], key);
      if es[0].key == key then rest
      else
        assert ([es[0]] + rest)[1..] == rest;
        [es[0]] + rest
  }

  /** `m` is the dictionary that indexes the entries `es`: one entry per key, and
      each key mapped to its entry's size. */
  ghost predicate Indexed(es: seq<Entry>, m: map<int, int>)
  {
    if |es| == 0 then m == map[]
    else
      && es[0].key in m
      && m[es[0].key] == es[0].size
      && Indexed(es[1..], m - {es[0].key})
  }

  predicate NonNegativeSizes(es: seq<Entry>)
  {
    forall i :: 0 <= i < |es| ==> es[i].size >= 0
  }

  lemma {:induction false} SumSizesAppend(a: seq<Entry>, b: seq<Entry>)
    ensures SumSizes(a + b) == SumSizes(a) + SumSizes(b)
    decreases |a|
  {
    if |a| == 0 {
      assert a + b == b;
    } else {
      assert (a + b)[1..] == a[1..] + b;
      SumSizesAppend(a[1..], b);
    }
  }

  lemma {:induction false} KeysAppend(a: seq<Entry>, b: seq<Entry>)
    ensures Keys(a + b) == Keys(a) + Keys(b)
    decreases |a|
  {
    if |a| == 0 {
      assert a + b == b;
    } else {
      assert (a + b)[1..] == a[1..] + b;
      KeysAppend(a[1..], b);
    }
  }

  lemma {:induction false} KeysAt(es: seq<Entry>, i: nat)
    requires i < |es|
    ensures es[i].key in Keys(es)
    decreases i
  {
    if i > 0 {
      KeysAt(es[1..], i - 1);
    }
  }

  lemma KeysOne(e: Entry)
    ensures Keys([e]) == {e.key} && SumSizes([e]) == e.size
  {
    assert [e][1..] == [];
  }

  lemma {:induction false} IndexedKeys(es: seq<Entry>, m: map<int, int>)
    requires Indexed(es, m)
    ensures m.Keys == Keys(es)
    decreases |es|
  {
    if |es| > 0 {
      IndexedKeys(es[1..], m - {es[0].key});
    }
  }

  /** Every entry is found in the dictionary with its size. */
  lemma {:induction false} IndexedAt(es: seq<Entry>, m: map<int, int>, i: nat)
    requires Indexed(es, m) && i < |es|
    ensures es[i].key in m && m[es[i].key] == es[i].size
    decreases i
  {
    if i > 0 {
      IndexedAt(es[1..], m - {es[0].key}, i - 1);
    }
  }

  /** Removing a key keeps the index consistent and takes exactly its size off the sum. */
  lemma {:induction false} IndexedWithout(es: seq<Entry>, m: map<int, int>, key: int)
    requires Indexed(es, m)
    ensures Indexed(Without(es, key), m - {key})
    ensures SumSizes(Without(es, key)) == SumSizes(es) - (if key in m then m[key] else 0)
    decreases |es|
  {
    if |es| == 0 {
      assert m - {key} == map[];
    } else {
      var e := es[0];
      var m' := m - {e.key};
      IndexedWithout(es[1..], m', key);
      if e.key == key {
        assert m' == m - {key};
        IndexedKeys(es[1..], m');
      } else {
        var w := Without(es[1..], key);
        assert ([e] + w)[1..] == w;
        assert (m - {key}) - {e.key} == m' - {key};
      }
    }
  }

  /** Appending an entry whose key is absent keeps the index consistent. */
  lemma {:induction false} IndexedSnoc(es: seq<Entry>, m: map<int, int>, e: Entry)
    requires Indexed(es, m) && e.key !in m
    ensures Indexed(es + [e], m[e.key := e.size])
    ensures SumSizes(es + [e]) == SumSizes(es) + e.size
    decreases |es|
  {
    SumSizesAppend(es, [e]);
    if |es| == 0 {
      assert es + [e] == [e];
      assert m[e.key := e.size] - {e.key} == map[];
    } else {
      var m' := m - {es[0].key};
      IndexedSnoc(es[1..], m', e);
      assert (es + [e])[1..] == es[1..] + [e];
      assert m[e.key := e.size] - {es[0].key} == m'[e.key := e.size];
    }
  }

  /** Prepending an entry whose key is absent keeps the index consistent. */
  lemma IndexedCons(e: Entry, es: seq<Entry>, m: map<int, int>)
    requires Indexed(es, m) && e.key !in m
    ensures Indexed([e] + es, m[e.key := e.size])
    ensures SumSizes([e] + es) == SumSizes(es) + e.size
  {
    assert ([e] + es)[1..] == es;
    assert m[e.key := e.size] - {e.key} == m;
  }

  /** Dropping the back entry of an indexed sequence. */
  lemma {:induction false} IndexedInit(es: seq<Entry>, m: map<int, int>)
    requires Indexed(es, m) && |es| > 0
    ensures es[|es| - 1].key in m
    ensures Indexed(es[..|es| - 1], m - {es[|es| - 1].key})
    ensures SumSizes(es[..|es| - 1]) == SumSizes(es) - es[|es| - 1].size
    decreases |es|
  {
    var last := es[|es| - 1];
    SumSizesAppend(es[..|es| - 1], [last]);
    assert es[..|es| - 1] + [last] == es;
    IndexedAt(es, m, |es| - 1);
    if |es| == 1 {
      assert m == map[es[0].key := es[0].size];
      assert m - {last.key} == map[];
    } else {
      var m' := m - {es[0].key};
      IndexedInit(es[1..], m');
      assert es[1..][..|es| - 2] == es[..|es| - 1][1..];
      assert es[1..][|es| - 2] == last;
      assert (m - {last.key}) - {es[0].key} == m' - {last.key};
    }
  }

  // ---------------------------------------------------------------------------
  // FIFOCache
  // ---------------------------------------------------------------------------

  /** `FIFOCache`: `queue[0]` is the deque's left end, where `appendleft` puts new
      entries; `queue[|queue| - 1]` is its right end, where `pop` takes victims. */
  datatype FifoCache = FifoCache(capacity: int, used: int, queue: seq<Entry>, items: map<int, int>)

  function NewFifo(capacity: int): FifoCache
  {
    FifoCache(capacity, 0, [], map[])
  }

  /** What every reachable FIFO state satisfies: `curr_capacity` is the sum over
      the deque (duplicates included), and every dictionary key is still queued. */
  ghost predicate FifoValid(c: FifoCache)
  {
    c.used == SumSizes(c.queue) && c.items.Keys <= Keys(c.queue)
  }

  /** The eviction loop of `put`: while the new object does not fit, pop the
      right end, give back its size and delete its key from the dictionary. */
  function FifoEvict(c: FifoCache, size: int): (r: Result<FifoCache, CacheError>)
    requires FifoValid(c)
    ensures r.Ok? ==> FifoValid(r.value) && r.value.capacity == c.capacity
    ensures r.Ok? ==> r.value.capacity >= r.value.used + size
    ensures r.Ok? ==> |r.value.queue| <= |c.queue| && r.value.queue == c.queue[..|r.value.queue|]
    ensures r.Ok? ==> r.value.items.Keys <= c.items.Keys
    ensures r.Ok? && c.capacity >= c.used + size ==> r.value == c
    ensures r.Ok? && |r.value.queue| < |c.queue| ==> c.capacity < SumSizes(c.queue[..|r.value.queue| + 1]) + size
    ensures r.Ok? ==> r.value.items == c.items - Keys(c.queue[|r.value.queue|..])
    ensures r == Err(PopFromEmpty) ==> size > c.capacity
    decreases |c.queue|
  {
    if c.capacity < c.used + size then
      if |c.queue| == 0 then Err(PopFromEmpty)
      else
        var victim := c.queue[|c.queue| - 1];
        var init := c.queue[..|c.queue| - 1];
        if victim.key !in c.items then Err(MissingKey(victim.key))
        else
          PopValid(c);
          var r := FifoEvict(FifoCache(c.capacity, c.used - victim.size, init, c.items - {victim.key}), size);
          if r.Ok? then PopStep(c.queue, init, victim, |r.value.queue|); r else r
    else
      assert c.queue[|c.queue|..] == [];
      Ok(c)
  }

  /** Popping the right end of a valid deque, giving back its size and deleting
      its key, leaves a valid state. */
  lemma PopValid(c: FifoCache)
    requires FifoValid(c) && |c.queue| > 0
    ensures var victim := c.queue[|c.queue| - 1];
      var init := c.queue[..|c.queue| - 1];
      && c.queue == init + [victim]
      && FifoValid(FifoCache(c.capacity, c.used - victim.size, init, c.items - {victim.key}))
  {
    var victim := c.queue[|c.queue| - 1];
    var init := c.queue[..|c.queue| - 1];
    assert c.queue == init + [victim];
    SumSizesAppend(init, [victim]);
    KeysAppend(init, [victim]);
    KeysOne(victim);
  }

  /** How the deque's prefixes and suffixes relate to those of the deque
      without its right end. */
  lemma PopStep(queue: seq<Entry>, init: seq<Entry>, victim: Entry, k: nat)
    requires queue == init + [victim] && k <= |init|
    ensures queue[..k] == init[..k]
    ensures queue[..k + 1] == (if k < |init| then init[..k + 1] else queue)
    ensures queue[k..] == init[k..] + [victim]
    ensures Keys(queue[k..]) == Keys(init[k..]) + {victim.key}
  {
    KeysAppend(init[k..], [victim]);
    KeysOne(victim);
    assert queue[k..] == init[k..] + [victim];
  }

  /** `FIFOCache.put`, exactly as written: evict, then `appendleft` the new entry
      and overwrite the dictionary slot, whether or not the key is already queued.
      The `value` argument is ignored by the source and is not modelled. */
  function FifoPut(c: FifoCache, key: int, size: int): (r: Result<FifoCache, CacheError>)
    requires FifoValid(c)
    ensures r.Ok? ==> FifoValid(r.value)
    ensures r.Ok? ==> r.value.used <= r.value.capacity == c.capacity
    ensures r.Ok? ==> 1 <= |r.value.queue| <= |c.queue| + 1 && r.value.queue[0] == Entry(key, size)
    ensures r.Ok? ==> r.value.queue[1..] == c.queue[..|r.value.queue| - 1]
    ensures r.Ok? ==> key in r.value.items && r.value.items[key] == size
    ensures r.Ok? ==> r.value.items == (c.items - Keys(c.queue[|r.value.queue| - 1..]))[key := size]
    ensures r.Ok? && c.capacity >= c.used + size ==> r.value.queue == [Entry(key, size)] + c.queue
    ensures r.Ok? && |r.value.queue| <= |c.queue| ==> c.capacity < SumSizes(c.queue[..|r.value.queue|]) + size
    ensures r == Err(PopFromEmpty) ==> size > c.capacity
    ensures r.Err? <==> FifoEvict(c, size).Err?
    ensures r.Err? ==> r.error == FifoEvict(c, size).error
    ensures FifoTidy(c) && size <= c.capacity ==> r.Ok?
  {
    FifoEvictSucceeds(c, size);
    match FifoEvict(c, size)
    case Err(e) => Err(e)
    case Ok(e) =>
      var q := [Entry(key, size)] + e.queue;
      assert q[1..] == e.queue;
      SumSizesAppend([Entry(key, size)], e.queue);
      KeysAppend([Entry(key, size)], e.queue);
      Ok(FifoCache(e.capacity, e.used + size, q, e.items[key := size]))
  }

  /** `FIFOCache.get`: the stored size, or 0 for an absent key. The returned value
      slot is always `None` and the cache is not modified, so only the size is
      modelled. */
  function FifoGet(c: FifoCache, key: int): (r: int)
    ensures key !in c.items ==> r == 0
    ensures key in c.items ==> r == c.items[key]
  {
    if key in c.items then c.items[key] else 0
  }

  /** After a successful put, every key that eviction popped, other than the key
      just put, is a miss. */
  lemma FifoPutEvictedMiss(c: FifoCache, key: int, size: int, k: int)
    requires FifoValid(c) && FifoPut(c, key, size).Ok? && k != key
    requires k in Keys(c.queue[|FifoPut(c, key, size).value.queue| - 1..])
    ensures FifoGet(FifoPut(c, key, size).value, k) == 0
  {
  }

  /** A successful put can be read back. */
  lemma FifoPutThenGet(c: FifoCache, key: int, size: int)
    requires FifoValid(c) && FifoPut(c, key, size).Ok?
    ensures FifoGet(FifoPut(c, key, size).value, key) == size
  {
  }

  /** `put` checks no residency: putting a key that is already queued leaves two
      entries with that key in the deque. */
  lemma FifoPutKeepsDuplicates(c: FifoCache, key: int, size: int, i: nat)
    requires FifoValid(c) && c.capacity >= c.used + size
    requires i < |c.queue| && c.queue[i].key == key
    ensures FifoPut(c, key, size).Ok?
    ensures var q := FifoPut(c, key, size).value.queue;
      q[0].key == key && q[i + 1].key == key
  {
  }

  /** The eviction loop succeeds for an object that fits a tidy state. */
  lemma FifoEvictSucceeds(c: FifoCache, size: int)
    requires FifoValid(c)
    ensures FifoTidy(c) && size <= c.capacity ==> FifoEvict(c, size).Ok?
  {
    if FifoTidy(c) && size <= c.capacity {
      FifoEvictTidy(c, size);
    }
  }

  /** A FIFO state whose deque holds each key once and agrees with the dictionary. */
  ghost predicate FifoTidy(c: FifoCache)
  {
    Indexed(c.queue, c.items) && c.used == SumSizes(c.queue)
  }

  /** On a tidy state the eviction loop never fails for an object that fits and
      leaves a tidy state. */
  lemma {:induction false} FifoEvictTidy(c: FifoCache, size: int)
    requires FifoTidy(c) && size <= c.capacity
    ensures FifoValid(c)
    ensures FifoEvict(c, size).Ok? && FifoTidy(FifoEvict(c, size).value)
    decreases |c.queue|
  {
    IndexedKeys(c.queue, c.items);
    if c.capacity < c.used + size && |c.queue| > 0 {
      var victim := c.queue[|c.queue| - 1];
      IndexedInit(c.queue, c.items);
      var next := FifoCache(c.capacity, c.used - victim.size, c.queue[..|c.queue| - 1], c.items - {victim.key});
      FifoEvictTidy(next, size);
      assert FifoEvict(c, size) == FifoEvict(next, size);
    } else {
      assert FifoEvict(c, size) == Ok(c);
    }
  }

  /** As written, re-putting a queued key keeps both entries; when eviction later
      pops the second one its key is already gone from the dictionary, and `del`
      raises `KeyError`. */
  lemma FifoDuplicateKeyError()
    ensures var c1 := FifoPut(NewFifo(10), 1, 5).value;
      var c2 := FifoPut(c1, 1, 5).value;
      && c2.queue == [Entry(1, 5), Entry(1, 5)]
      && FifoPut(c2, 2, 10) == Err(MissingKey(1))
  {
    var c0 := NewFifo(10);
    var c1 := FifoCache(10, 5, [Entry(1, 5)], map[1 := 5]);
    assert FifoEvict(c0, 5) == Ok(c0);
    assert [Entry(1, 5)] + [] == [Entry(1, 5)];
    assert map[][1 := 5] == map[1 := 5];
    assert FifoPut(c0, 1, 5) == Ok(c1);
    var c2 := FifoCache(10, 10, [Entry(1, 5), Entry(1, 5)], map[1 := 5]);
    assert FifoEvict(c1, 5) == Ok(c1);
    assert [Entry(1, 5)] + [Entry(1, 5)] == [Entry(1, 5), Entry(1, 5)];
    assert map[1 := 5][1 := 5] == map[1 := 5];
    assert FifoPut(c1, 1, 5) == Ok(c2);
    var c3 := FifoCache(10, 5, [Entry(1, 5)], map[]);
    assert [Entry(1, 5)][..0] == [];
    assert FifoEvict(c3, 10) == Err(MissingKey(1));
    assert [Entry(1, 5), Entry(1, 5)][..1] == [Entry(1, 5)];
    assert map[1 := 5] - {1} == map[];
    assert FifoEvict(c2, 10) == FifoEvict(c3, 10);
  }

  /** A stale duplicate can outlive its dictionary entry. With capacity 10, from
      the state two calls `put(1, 5)` leave (`FifoDuplicateKeyError`), `put(2, 5)`
      pops one copy of key 1 and `put(3, 0)` then fits: the deque still holds
      key 1 at its right end, but `get(1)` misses. */
  lemma FifoStaleEntryMiss()
    ensures FifoPut(FifoCache(10, 10, [Entry(1, 5), Entry(1, 5)], map[1 := 5]), 2, 5)
            == Ok(FifoCache(10, 10, [Entry(2, 5), Entry(1, 5)], map[2 := 5]))
    ensures FifoPut(FifoCache(10, 10, [Entry(2, 5), Entry(1, 5)], map[2 := 5]), 3, 0)
            == Ok(FifoCache(10, 10, [Entry(3, 0), Entry(2, 5), Entry(1, 5)], map[2 := 5, 3 := 0]))
    ensures 1 in Keys([Entry(3, 0), Entry(2, 5), Entry(1, 5)])
    ensures FifoGet(FifoCache(10, 10, [Entry(3, 0), Entry(2, 5), Entry(1, 5)], map[2 := 5, 3 := 0]), 1) == 0
  {
    FifoStalePop();
    FifoStaleAppend();
    KeysOne(Entry(1, 5));
    KeysAppend([Entry(3, 0), Entry(2, 5)], [Entry(1, 5)]);
    assert [Entry(3, 0), Entry(2, 5)] + [Entry(1, 5)] == [Entry(3, 0), Entry(2, 5), Entry(1, 5)];
  }

  /** Then `put(3, 0)` fits without eviction. */
  lemma FifoStaleAppend()
    ensures FifoPut(FifoCache(10, 10, [Entry(2, 5), Entry(1, 5)], map[2 := 5]), 3, 0)
            == Ok(FifoCache(10, 10, [Entry(3, 0), Entry(2, 5), Entry(1, 5)], map[2 := 5, 3 := 0]))
  {
    var c3 := FifoCache(10, 10, [Entry(2, 5), Entry(1, 5)], map[2 := 5]);
    assert FifoEvict(c3, 0) == Ok(c3);
    assert [Entry(3, 0)] + [Entry(2, 5), Entry(1, 5)] == [Entry(3, 0), Entry(2, 5), Entry(1, 5)];
  }

  /** Then `put(2, 5)` pops one copy of key 1 and deletes it from the dictionary. */
  lemma FifoStalePop()
    ensures FifoPut(FifoCache(10, 10, [Entry(1, 5), Entry(1, 5)], map[1 := 5]), 2, 5)
            == Ok(FifoCache(10, 10, [Entry(2, 5), Entry(1, 5)], map[2 := 5]))
  {
    var c2 := FifoCache(10, 10, [Entry(1, 5), Entry(1, 5)], map[1 := 5]);
    var popped := FifoCache(10, 5, [Entry(1, 5)], map[]);
    assert [Entry(1, 5), Entry(1, 5)][..1] == [Entry(1, 5)];
    assert map[1 := 5] - {1} == map[];
    assert FifoEvict(popped, 5) == Ok(popped);
    assert FifoEvict(c2, 5) == Ok(popped);
    assert [Entry(2, 5)] + [Entry(1, 5)] == [Entry(2, 5), Entry(1, 5)];
    assert map[][2 := 5] == map[2 := 5];
  }

  /** The put a FIFO cache evidently intends: a key already queued is first taken
      out of the deque (giving back its size), then eviction and `appendleft`
      proceed as before, so the deque holds each key once. */
  function FifoPutUnique(c: FifoCache, key: int, size: int): (r: Result<FifoCache, CacheError>)
    requires FifoTidy(c)
    ensures size <= c.capacity <==> r.Ok?
    ensures r.Ok? ==> FifoTidy(r.value) && r.value.used <= r.value.capacity == c.capacity
    ensures r.Ok? ==> |r.value.queue| >= 1 && r.value.queue[0] == Entry(key, size)
    ensures r.Ok? ==> |r.value.queue| - 1 <= |Without(c.queue, key)|
                      && r.value.queue[1..] == Without(c.queue, key)[..|r.value.queue| - 1]
    ensures r.Ok? && |r.value.queue| - 1 < |Without(c.queue, key)|
            ==> c.capacity < SumSizes(Without(c.queue, key)[..|r.value.queue|]) + size
  {
    if size > c.capacity then Err(PopFromEmpty)
    else
      IndexedWithout(c.queue, c.items, key);
      var removed := FifoCache(c.capacity, c.used - (if key in c.items then c.items[key] else 0),
                               Without(c.queue, key), c.items - {key});
      FifoEvictTidy(removed, size);
      var e := FifoEvict(removed, size).value;
      IndexedCons(Entry(key, size), e.queue, e.items);
      assert ([Entry(key, size)] + e.queue)[1..] == e.queue;
      Ok(FifoCache(e.capacity, e.used + size, [Entry(key, size)] + e.queue, e.items[key := size]))
  }

  /** With the intended put, a key just put is read back and is queued once. */
  lemma FifoPutUniqueThenGet(c: FifoCache, key: int, size: int)
    requires FifoTidy(c) && size <= c.capacity
    ensures FifoGet(FifoPutUnique(c, key, size).value, key) == size
    ensures key !in Keys(FifoPutUnique(c, key, size).value.queue[1..])
  {
    var r := FifoPutUnique(c, key, size).value;
    IndexedAt(r.queue, r.items, 0);
    IndexedKeys(r.queue[1..], r.items - {key});
  }

  // ---------------------------------------------------------------------------
  // LRUCache
  // ---------------------------------------------------------------------------

  /** `LRUCache`: `order` lists the nodes from `least_recent` (index 0) to
      `most_recent` (last index); `nodes` is `self.map`, each key to its node's size. */
  datatype LruCache = LruCache(capacity: int, used: int, nodes: map<int, int>, order: seq<Entry>)

  function NewLru(capacity: int): LruCache
  {
    LruCache(capacity, 0, map[], [])
  }

  /** The linked list and the map hold the same nodes, once each, and
      `curr_capacity` is the sum of their sizes. */
  ghost predicate LruValid(c: LruCache)
  {
    Indexed(c.order, c.nodes) && c.used == SumSizes(c.order)
  }

  /** `_remove_node`: unlink the node with `key`; the others keep their order. */
  function RemoveNode(order: seq<Entry>, key: int): (r: seq<Entry>)
    ensures key !in Keys(r) && Keys(r) == Keys(order) - {key}
    ensures key !in Keys(order) ==> r == order
    ensures forall i :: 0 <= i < |order| && order[i].key == key && key !in Keys(order[..i] + order[i + 1..])
                        ==> r == order[..i] + order[i + 1..]
  {
    RemoveOnce(order, key);
    Without(order, key)
  }

  lemma {:induction false} WithoutAppend(a: seq<Entry>, b: seq<Entry>, key: int)
    ensures Without(a + b, key) == Without(a, key) + Without(b, key)
    decreases |a|
  {
    if |a| > 0 {
      assert (a + b)[1..] == a[1..] + b;
      WithoutAppend(a[1..], b, key);
    } else {
      assert a + b == b;
    }
  }

  /** Removing the one node with `key` leaves the nodes before it and after it, joined. */
  lemma RemoveOnce(order: seq<Entry>, key: int)
    ensures forall i :: 0 <= i < |order| && order[i].key == key && key !in Keys(order[..i] + order[i + 1..])
                        ==> Without(order, key) == order[..i] + order[i + 1..]
  {
    forall i | 0 <= i < |order| && order[i].key == key && key !in Keys(order[..i] + order[i + 1..]) {
      RemoveAt(order, key, i);
    }
  }

  lemma RemoveAt(order: seq<Entry>, key: int, i: nat)
    requires i < |order| && order[i].key == key && key !in Keys(order[..i] + order[i + 1..])
    ensures Without(order, key) == order[..i] + order[i + 1..]
  {
    var before, node, after := order[..i], order[i], order[i + 1..];
    assert order == (before + [node]) + after;
    WithoutAppend(before + [node], after, key);
    DropAt(before, node, after, key);
  }

  /** Dropping a node with `key` from between two runs without `key`. */
  lemma DropAt(before: seq<Entry>, node: Entry, after: seq<Entry>, key: int)
    requires node.key == key && key !in Keys(before + after)
    ensures Without(before + [node], key) + Without(after, key) == before + after
  {
    assert key !in Keys(before) && key !in Keys(after) by { KeysAppend(before, after); }
    assert Without(before + [node], key) == before by {
      WithoutAppend(before, [node], key);
      assert Without([node], key) == [] by { assert [node][1..] == []; }
      assert Without(before, key) == before;
      assert before + [] == before;
    }
    assert Without(after, key) == after;
  }

  /** `_add_to_head`: link a node in as `most_recent`. The node's key joins the
      list's keys and its size the list's total; every other node keeps its place. */
  function AddToHead(order: seq<Entry>, node: Entry): (r: seq<Entry>)
    ensures |r| == |order| + 1 && r[|order|] == node && r[..|order|] == order
    ensures Keys(r) == Keys(order) + {node.key}
    ensures SumSizes(r) == SumSizes(order) + node.size
  {
    KeysAppend(order, [node]);
    SumSizesAppend(order, [node]);
    KeysOne(node);
    order + [node]
  }

  /** The eviction loop of `put`: while the new object does not fit, unlink
      `least_recent`, give back its size and delete its key from the map. */
  function LruEvict(c: LruCache, size: int): (r: Result<LruCache, CacheError>)
    requires LruValid(c)
    ensures r.Err? ==> size > c.capacity
    ensures size <= c.capacity ==> r.Ok?
    ensures r.Ok? ==> LruValid(r.value) && r.value.capacity == c.capacity
    ensures r.Ok? ==> r.value.capacity >= r.value.used + size
    ensures r.Ok? ==> |r.value.order| <= |c.order| && r.value.order == c.order[|c.order| - |r.value.order|..]
    ensures c.capacity >= c.used + size ==> r == Ok(c)
    ensures r.Ok? && |r.value.order| < |c.order|
            ==> c.capacity < SumSizes(c.order[|c.order| - |r.value.order| - 1..]) + size
    decreases |c.order|
  {
    if c.capacity < c.used + size then
      if |c.order| == 0 then Err(NoVictim)
      else
        var victim := c.order[0];
        var r := LruEvict(LruCache(c.capacity, c.used - victim.size, c.nodes - {victim.key}, c.order[1..]), size);
        assert r.Ok? ==> r.value.order == c.order[|c.order| - |r.value.order|..];
        assert r.Ok? && |r.value.order| == |c.order| - 1 ==> c.order[|c.order| - |r.value.order| - 1..] == c.order;
        assert r.Ok? && |r.value.order| < |c.order| - 1
               ==> c.order[|c.order| - |r.value.order| - 1..] == c.order[1..][|c.order| - 1 - |r.value.order| - 1..];
        r
    else Ok(c)
  }

  /** `LRUCache.put`. The assertion rejects an object larger than the capacity;
      eviction runs before the key is looked up; a resident key has its node
      unlinked, resized and relinked as most recent, a new key gets a new node
      there. The `value` argument is ignored by the source and is not modelled. */
  function LruPut(c: LruCache, key: int, size: int): (r: Result<LruCache, CacheError>)
    requires LruValid(c)
    ensures r.Ok? <==> size <= c.capacity
    ensures r.Err? ==> r.error == TooLarge(size)
    ensures r.Ok? ==> LruValid(r.value) && r.value.capacity == c.capacity
  {
    if !(size <= c.capacity) then Err(TooLarge(size))
    else Ok(Relink(LruEvict(c, size).value, key, size))
  }

  /** The part of `put` after eviction: a resident key's node is unlinked and its
      old size given back, then the node with the new size is linked in as most
      recent and mapped. */
  function Relink(e: LruCache, key: int, size: int): (r: LruCache)
    requires LruValid(e)
    ensures LruValid(r) && r.capacity == e.capacity && r.nodes == e.nodes[key := size]
    ensures r.order == RemoveNode(e.order, key) + [Entry(key, size)]
  {
    var node := Entry(key, size);
    IndexedWithout(e.order, e.nodes, key);
    var rest := RemoveNode(e.order, key);
    IndexedSnoc(rest, e.nodes - {key}, node);
    assert (e.nodes - {key})[key := size] == e.nodes[key := size];
    var used := if key in e.nodes then e.used - e.nodes[key] + size else e.used + size;
    LruCache(e.capacity, used, e.nodes[key := size], AddToHead(rest, node))
  }

  /** Eviction takes nodes from the least-recent end only; the survivors keep
      their order, the put key leaves its old place and becomes most recent,
      stored once with its new size. */
  lemma LruPutRecency(c: LruCache, key: int, size: int)
    requires LruValid(c) && size <= c.capacity
    ensures var r := LruPut(c, key, size).value;
      var n := |c.order| - |LruEvict(c, size).value.order|;
      && r.order[|r.order| - 1] == Entry(key, size)
      && key !in Keys(r.order[..|r.order| - 1])
      && 0 <= n <= |c.order|
      && r.order == RemoveNode(c.order[n..], key) + [Entry(key, size)]
      && (c.capacity >= c.used + size ==> n == 0)
      && (n > 0 ==> c.capacity < SumSizes(c.order[n - 1..]) + size)
  {
    var e := LruEvict(c, size).value;
    var n := |c.order| - |e.order|;
    var rest := RemoveNode(c.order[n..], key);
    var r := LruPut(c, key, size).value;
    assert r.order == rest + [Entry(key, size)] by {
      assert r == Relink(e, key, size);
      assert e.order == c.order[n..];
    }
    assert r.order[..|r.order| - 1] == rest && key !in Keys(rest);
  }

  /** When every stored size is non-negative, `curr_capacity` ends within the
      capacity. (The source's over-eviction for a resident key counts its old
      size twice, which only helps.) */
  lemma LruPutWithinCapacity(c: LruCache, key: int, size: int)
    requires LruValid(c) && size <= c.capacity && NonNegativeSizes(c.order)
    ensures LruPut(c, key, size).value.used <= c.capacity
  {
    var e := LruEvict(c, size).value;
    var n := |c.order| - |e.order|;
    if key in e.nodes {
      IndexedKeys(e.order, e.nodes);
      var i := KeyIndex(e.order, key);
      IndexedAt(e.order, e.nodes, i);
      assert e.order[i] == c.order[n + i];
    }
  }

  /** The position of a key in a sequence that holds it. */
  lemma {:induction false} KeyIndex(es: seq<Entry>, key: int) returns (i: nat)
    requires key in Keys(es)
    ensures i < |es| && es[i].key == key
    decreases |es|
  {
    if es[0].key == key {
      i := 0;
    } else {
      var j := KeyIndex(es[1..], key);
      i := j + 1;
    }
  }

  /** `LRUCache.get`: a hit relinks the node as most recent and returns its size;
      a miss returns 0 and changes nothing. The returned value slot is always
      `None`. */
  function LruGet(c: LruCache, key: int): (r: (int, LruCache))
    requires LruValid(c)
    ensures LruValid(r.1) && r.1.capacity == c.capacity && r.1.used == c.used && r.1.nodes == c.nodes
    ensures key !in c.nodes ==> r == (0, c)
    ensures key in c.nodes ==>
              && r.0 == c.nodes[key]
              && r.1.order == RemoveNode(c.order, key) + [Entry(key, c.nodes[key])]
  {
    if key !in c.nodes then (0, c)
    else
      var node := Entry(key, c.nodes[key]);
      IndexedWithout(c.order, c.nodes, key);
      var rest := RemoveNode(c.order, key);
      IndexedSnoc(rest, c.nodes - {key}, node);
      assert (c.nodes - {key})[key := c.nodes[key]] == c.nodes;
      (c.nodes[key], LruCache(c.capacity, c.used, c.nodes, AddToHead(rest, node)))
  }

  /** A new cache is a valid one. */
  lemma NewLruValid(capacity: int)
    ensures LruValid(NewLru(capacity))
  {
  }

  /** A key just put is a hit of the size just put. */
  lemma LruPutThenGet(c: LruCache, key: int, size: int)
    requires LruValid(c) && size <= c.capacity
    ensures LruGet(LruPut(c, key, size).value, key).0 == size
  {
    var r := LruPut(c, key, size).value;
    IndexedAt(r.order, r.nodes, |r.order| - 1);
  }

  /** The two parts of an indexed sequence share no key. */
  lemma {:induction false} IndexedSplit(a: seq<Entry>, b: seq<Entry>, m: map<int, int>)
    requires Indexed(a + b, m)
    ensures Keys(a) !! Keys(b)
    decreases |a|
  {
    if |a| > 0 {
      assert (a + b)[1..] == a[1..] + b;
      IndexedSplit(a[1..], b, m - {a[0].key});
      IndexedKeys(a[1..] + b, m - {a[0].key});
      KeysAppend(a[1..], b);
    }
  }

  /** Every node the eviction loop removed is gone from the map. */
  lemma LruEvictForgetsVictims(c: LruCache, size: int)
    requires LruValid(c) && size <= c.capacity
    ensures var e := LruEvict(c, size).value;
      Keys(c.order[..|c.order| - |e.order|]) !! e.nodes.Keys
  {
    var e := LruEvict(c, size).value;
    var n := |c.order| - |e.order|;
    SplitAt(c.order, n);
    IndexedSplit(c.order[..n], e.order, c.nodes);
    IndexedKeys(e.order, e.nodes);
  }

  /** A sequence is its prefix followed by its suffix. */
  lemma SplitAt(es: seq<Entry>, n: nat)
    requires n <= |es|
    ensures es == es[..n] + es[n..]
  {
  }
}

=== FILE: caching_stack.dfy ===
/** `SimulatedCachingStack`: the later composition of a filter and a cache, in
    which reads are filtered too. Filter and cache are abstract as in
    `CachingSystem`; the cache's lookup yields `None` on a miss. */
module CachingStack {
  import opened Wrappers

  datatype Stack<F, C> = Stack(filter: F, cache: C)

  /** `SimulatedCachingStack.put`: `False` and an untouched cache when the filter
      rejects, otherwise the cache's `put` and `True`. */
  function Put<F, C, R>(s: Stack<F, C>, request: R, shouldFilter: (F, R) -> (bool, F), put: (C, R) -> C)
    : (r: (bool, Stack<F, C>))
    ensures r.1.filter == shouldFilter(s.filter, request).1
    ensures r.0 <==> !shouldFilter(s.filter, request).0
    ensures r.1.cache == if r.0 then put(s.cache, request) else s.cache
  {
    var (filtered, filter') := shouldFilter(s.filter, request);
    if filtered then (false, Stack(filter', s.cache))
    else (true, Stack(filter', put(s.cache, request)))
  }

  /** `SimulatedCachingStack.get`: a request the filter rejects reads as `None`
      without touching the cache; otherwise the cache's answer is returned as is. */
  function Get<F, C, R, O>(s: Stack<F, C>, request: R, shouldFilter: (F, R) -> (bool, F),
                            get: (C, R) -> (Option<O>, C)): (r: (Option<O>, Stack<F, C>))
    ensures r.1.filter == shouldFilter(s.filter, request).1
    ensures shouldFilter(s.filter, request).0 ==> r.0 == None && r.1.cache == s.cache
    ensures !shouldFilter(s.filter, request).0 ==> (r.0, r.1.cache) == get(s.cache, request)
  {
    var (filtered, filter') := shouldFilter(s.filter, request);
    if filtered then (None, Stack(filter', s.cache))
    else
      var (result, cache') := get(s.cache, request);
      (result, Stack(filter', cache'))
  }

  /** A filter wrapped so that it also records every request it is asked about. */
  datatype Logged<F, R> = Logged(inner: F, asked: seq<R>)

  function LoggedShouldFilter<F, R>(shouldFilter: (F, R) -> (bool, F)): (Logged<F, R>, R) -> (bool, Logged<F, R>)
  {
    (l: Logged<F, R>, r: R) => (shouldFilter(l.inner, r).0, Logged(shouldFilter(l.inner, r).1, l.asked + [r]))
  }

  /** A miss that is followed by a put asks the filter twice about the same
      request: once in `get`, once in `put`. */
  lemma MissThenPutAsksTwice<F, C, R, O>(s: Stack<F, C>, request: R, shouldFilter: (F, R) -> (bool, F),
                                         get: (C, R) -> (Option<O>, C), put: (C, R) -> C)
    ensures var sf := LoggedShouldFilter(shouldFilter);
      var s0 := Stack(Logged(s.filter, []), s.cache);
      var (result, s1) := Get(s0, request, sf, get);
      result == None ==> Put(s1, request, sf, put).1.filter.asked == [request, request]
  {
  }
}

=== FILE: caching_system.dfy ===
/** `CachingSystem`: one admission filter in front of one cache. Only writes are
    filtered; reads go straight to the cache. The filter and the cache are
    abstract: `shouldFilter` returns the decision and the filter's next state,
    `admit` the cache's next state, `get` the lookup result and the cache's next
    state (a lookup may reorder the cache). */
module CachingSystem {

  datatype System<F, C> = System(filter: F, cache: C)

  /** What `put` returns: `False` when the filter rejects, otherwise the implicit
      `None` (the function falls off its end after `admit`). */
  datatype PutReturn = ReturnedFalse | ReturnedNone

  /** `CachingSystem.put`: consult the filter once; on rejection return `False`
      and leave the cache alone, otherwise hand the request to `admit`. */
  function Put<F, C, R>(s: System<F, C>, request: R, shouldFilter: (F, R) -> (bool, F), admit: (C, R) -> C)
    : (r: (PutReturn, System<F, C>))
    ensures r.1.filter == shouldFilter(s.filter, request).1
    ensures r.0 == ReturnedFalse <==> shouldFilter(s.filter, request).0
    ensures r.0 == ReturnedFalse ==> r.1.cache == s.cache
    ensures r.0 == ReturnedNone ==> r.1.cache == admit(s.cache, request)
  {
    var (filtered, filter') := shouldFilter(s.filter, request);
    if filtered then (ReturnedFalse, System(filter', s.cache))
    else (ReturnedNone, System(filter', admit(s.cache, request)))
  }

  /** `CachingSystem.get`: delegate to the cache; the filter is not consulted. */
  function Get<F, C, R, O>(s: System<F, C>, request: R, get: (C, R) -> (O, C)): (r: (O, System<F, C>))
    ensures r.1.filter == s.filter
    ensures (r.0, r.1.cache) == get(s.cache, request)
  {
    var (result, cache') := get(s.cache, request);
    (result, System(s.filter, cache'))
  }

  /** Puts a run of requests through the system. */
  function PutAll<F, C, R>(s: System<F, C>, requests: seq<R>, shouldFilter: (F, R) -> (bool, F), admit: (C, R) -> C)
    : System<F, C>
    decreases |requests|
  {
    if |requests| == 0 then s
    else PutAll(Put(s, requests[0], shouldFilter, admit).1, requests[1..], shouldFilter, admit)
  }

  /** The requests of a run that the filter lets through, with the filter's final state. */
  function Passed<F, R>(filter: F, requests: seq<R>, shouldFilter: (F, R) -> (bool, F)): (seq<R>, F)
    decreases |requests|
  {
    if |requests| == 0 then ([], filter)
    else
      var (filtered, filter') := shouldFilter(filter, requests[0]);
      var (rest, last) := Passed(filter', requests[1..], shouldFilter);
      if filtered then (rest, last) else ([requests[0]] + rest, last)
  }

  /** Admits a run of requests straight into the cache. */
  function AdmitAll<C, R>(cache: C, requests: seq<R>, admit: (C, R) -> C): C
    decreases |requests|
  {
    if |requests| == 0 then cache else AdmitAll(admit(cache, requests[0]), requests[1..], admit)
  }

  /** The cache after a run of puts is the cache that admitted exactly the
      requests the filter passed, in order; rejected requests never reach it. */
  lemma {:induction false} PutAllAdmitsPassed<F, C, R>(s: System<F, C>, requests: seq<R>,
                                                      shouldFilter: (F, R) -> (bool, F), admit: (C, R) -> C)
    ensures PutAll(s, requests, shouldFilter, admit).cache
         == AdmitAll(s.cache, Passed(s.filter, requests, shouldFilter).0, admit)
    ensures PutAll(s, requests, shouldFilter, admit).filter == Passed(s.filter, requests, shouldFilter).1
    decreases |requests|
  {
    if |requests| > 0 {
      var s' := Put(s, requests[0], shouldFilter, admit).1;
      PutAllAdmitsPassed(s', requests[1..], shouldFilter, admit);
      var (filtered, _) := shouldFilter(s.filter, requests[0]);
      var rest := Passed(s'.filter, requests[1..], shouldFilter).0;
      if !filtered {
        assert ([requests[0]] + rest)[1..] == rest;
      }
    }
  }

  /** Reads never change the filter, however many there are. */
  lemma {:induction false} GetsLeaveFilter<F, C, R, O>(s: System<F, C>, requests: seq<R>, get: (C, R) -> (O, C))
    ensures GetAll(s, requests, get).filter == s.filter
    decreases |requests|
  {
    if |requests| > 0 {
      GetsLeaveFilter(Get(s, requests[0], get).1, requests[1..], get);
    }
  }

  /** Looks up a run of requests. */
  function GetAll<F, C, R, O>(s: System<F, C>, requests: seq<R>, get: (C, R) -> (O, C)): System<F, C>
    decreases |requests|
  {
    if |requests| == 0 then s else GetAll(Get(s, requests[0], get).1, requests[1..], get)
  }
}

=== FILE: filters.dfy ===
/** The admission filters: `should_filter(key, size)` answers true when the
    object must be kept out of the cache. */
module Filters {
  import opened Wrappers

  /** The exception the Bloom filter raises: it reads `_current_filter`, which no
      code ever assigns (`AttributeError`). */
  datatype FilterError = NoCurrentFilter

  /** `NullFilter.should_filter`: lets everything through. */
  function NullShouldFilter(key: int, size: int): (filtered: bool)
    ensures !filtered
  {
    false
  }

  /** `BypassFilter.should_filter`: keeps out objects strictly larger than the threshold. */
  function BypassShouldFilter(thresholdSize: int, key: int, size: int): (filtered: bool)
    ensures filtered <==> size > thresholdSize
  {
    size > thresholdSize
  }

  /** The bypass decision depends on the size alone, is monotone in it, and a
      size equal to the threshold passes. */
  lemma BypassBySizeOnly(thresholdSize: int, key1: int, key2: int, size1: int, size2: int)
    requires size1 <= size2
    ensures BypassShouldFilter(thresholdSize, key1, size1) ==> BypassShouldFilter(thresholdSize, key2, size2)
    ensures !BypassShouldFilter(thresholdSize, key1, thresholdSize)
  {
  }

  /** One of the two generations of the Bloom filter. */
  datatype Generation = First | Second {
    /** `1 - self._current_filter`. */
    function Other(): (g: Generation)
      ensures g != this
    {
      if First? then Second else First
    }
  }

  /** `BloomFilter`'s state: the two generation sets `_filters[0]` and
      `_filters[1]`, the per-generation limit `_m`, and `_current_filter`, which
      is `None` while unassigned. The hash count `k` is accepted and dropped by
      the constructor, so it is not part of the state. */
  datatype BloomFilter = BloomFilter(first: set<int>, second: set<int>, m: int, current: Option<Generation>)
  {
    function Gen(g: Generation): set<int>
    {
      if g.First? then first else second
    }

    function WithGen(g: Generation, s: set<int>): (b: BloomFilter)
      ensures b.Gen(g) == s && b.Gen(g.Other()) == Gen(g.Other())
      ensures b.m == m && b.current == current
    {
      if g.First? then this.(first := s) else this.(second := s)
    }
  }

  /** `BloomFilter(m, k)` as written: two empty generations and no current one. */
  function NewBloom(m: int, k: int): BloomFilter
  {
    BloomFilter({}, {}, m, None)
  }

  /** `BloomFilter.exists`. Once the current generation holds `m` keys or more,
      the other generation is emptied (if it has anything) and becomes current.
      The membership test itself is unimplemented: the answer is always false. */
  function Exists(b: BloomFilter, key: int): (r: Result<(bool, BloomFilter), FilterError>)
    ensures r.Err? <==> b.current.None?
    ensures r.Ok? ==> !r.value.0 && r.value.1.m == b.m && r.value.1.current.Some?
    ensures r.Ok? ==>
              var cur := b.current.value;
              var after := r.value.1;
              if |b.Gen(cur)| >= b.m then
                && after.current == Some(cur.Other())
                && after.Gen(cur.Other()) == {}
                && after.Gen(cur) == b.Gen(cur)
              else after == b
  {
    match b.current
    case None => Err(NoCurrentFilter)
    case Some(cur) =>
      if !(|b.Gen(cur)| < b.m) then
        var cleared := if |b.Gen(cur.Other())| > 0 then b.WithGen(cur.Other(), {}) else b;
        Ok((false, cleared.(current := Some(cur.Other()))))
      else Ok((false, b))
  }

  /** `BloomFilter.put`: unimplemented; records nothing. */
  function Put(b: BloomFilter, key: int): (r: BloomFilter)
    ensures r == b
  {
    b
  }

  /** `BloomFilter.should_filter`: a key reported present passes; otherwise it is
      recorded and kept out. */
  function BloomShouldFilter(b: BloomFilter, key: int, size: int): (r: Result<(bool, BloomFilter), FilterError>)
    ensures r.Err? <==> b.current.None?
    ensures r.Ok? ==> r.value.1.first <= b.first && r.value.1.second <= b.second
    ensures r.Ok? ==> Exists(b, key).Ok? && r.value.0 && r.value.1 == Put(Exists(b, key).value.1, key)
  {
    match Exists(b, key)
    case Err(e) => Err(e)
    case Ok((present, after)) =>
      if present then Ok((false, after)) else Ok((true, Put(after, key)))
  }

  /** Decisions for a run of requests, threading the filter state through. */
  function BloomRun(b: BloomFilter, keys: seq<int>, sizes: seq<int>): Result<(seq<bool>, BloomFilter), FilterError>
    requires |keys| == |sizes|
    decreases |keys|
  {
    if |keys| == 0 then Ok(([], b))
    else match BloomShouldFilter(b, keys[0], sizes[0])
      case Err(e) => Err(e)
      case Ok((d, b')) =>
        match BloomRun(b', keys[1..], sizes[1..])
        case Err(e) => Err(e)
        case Ok((ds, last)) => Ok(([d] + ds, last))
  }

  /** As written, a filter with a current generation filters every request and
      its generations never grow. */
  lemma {:induction false} BloomAlwaysFilters(b: BloomFilter, keys: seq<int>, sizes: seq<int>)
    requires |keys| == |sizes| && b.current.Some?
    ensures BloomRun(b, keys, sizes).Ok?
    ensures var (ds, last) := BloomRun(b, keys, sizes).value;
      && |ds| == |keys|
      && (forall i :: 0 <= i < |ds| ==> ds[i])
      && last.first <= b.first && last.second <= b.second
      && last.m == b.m
    decreases |keys|
  {
    if |keys| > 0 {
      var after := BloomShouldFilter(b, keys[0], sizes[0]).value.1;
      BloomAlwaysFilters(after, keys[1..], sizes[1..]);
    }
  }

  /** As written, the constructor leaves `_current_filter` unassigned, so the very
      first `should_filter` raises. */
  lemma BloomUninitialised(m: int, k: int, key: int, size: int)
    ensures BloomShouldFilter(NewBloom(m, k), key, size) == Err(NoCurrentFilter)
  {
  }

  /** The constructor evidently intended: generation 0 is current from the start. */
  function NewBloomInitialised(m: int, k: int): (b: BloomFilter)
    ensures b.current == Some(First) && b.first == {} && b.second == {} && b.m == m
  {
    BloomFilter({}, {}, m, Some(First))
  }

  /** With the intended constructor no request raises, and since nothing is ever
      recorded both generations stay empty. */
  lemma BloomInitialisedNeverFails(m: int, k: int, keys: seq<int>, sizes: seq<int>)
    requires |keys| == |sizes|
    ensures BloomRun(NewBloomInitialised(m, k), keys, sizes).Ok?
    ensures var last := BloomRun(NewBloomInitialised(m, k), keys, sizes).value.1;
      last.first == {} && last.second == {}
  {
    BloomAlwaysFilters(NewBloomInitialised(m, k), keys, sizes);
  }

  /** The `IFilter` interface as a closed set of variants. */
  datatype Filter = Null | Bypass(thresholdSize: int) | Bloom(state: BloomFilter)

  /** `should_filter` dispatched on the variant; the stateless variants come back unchanged. */
  function ShouldFilter(f: Filter, key: int, size: int): (r: Result<(bool, Filter), FilterError>)
    ensures !f.Bloom? ==> r.Ok? && r.value.1 == f
    ensures f.Null? ==> !r.value.0
    ensures f.Bypass? ==> (r.value.0 <==> size > f.thresholdSize)
    ensures f.Bloom? ==> (r.Ok? <==> f.state.current.Some?)
    ensures f.Bloom? && r.Ok? ==>
              var answer := BloomShouldFilter(f.state, key, size);
              answer.Ok? && r.value == (answer.value.0, Bloom(answer.value.1))
  {
    match f
    case Null => Ok((NullShouldFilter(key, size), f))
    case Bypass(t) => Ok((BypassShouldFilter(t, key, size), f))
    case Bloom(b) =>
      match BloomShouldFilter(b, key, size)
      case Err(e) => Err(e)
      case Ok((d, b')) => Ok((d, Bloom(b')))
  }
}

=== FILE: quickselect.dfy ===
/** Lomuto partition and k-th smallest selection over a slice `a[l..r]`
    (inclusive bounds, as in the source). The source permutes a Python list in
    place; here the list is a sequence and each method returns the permuted
    sequence. */
module QuickSelect {
  import opened Wrappers

  /** `kthSmallest` reaches `return sys.maxsize` for `k` outside `1..r-l+1`, and
      `sys` is never imported, so the call raises `NameError`. */
  datatype SelectError = NameError

  /** How many elements of `s` are strictly below `v`. */
  function CountLess(s: seq<int>, v: int): nat
  {
    if |s| == 0 then 0 else (if s[0] < v then 1 else 0) + CountLess(s[1..], v)
  }

  /** How many elements of `s` are at most `v`. */
  function CountLeq(s: seq<int>, v: int): nat
  {
    if |s| == 0 then 0 else (if s[0] <= v then 1 else 0) + CountLeq(s[1..], v)
  }

  /** `v` is the k-th smallest element (1-based) of `s`: fewer than `k` elements
      lie strictly below it and at least `k` lie at or below it. */
  predicate IsKth(s: seq<int>, k: int, v: int)
  {
    v in s && CountLess(s, v) < k <= CountLeq(s, v)
  }

  lemma {:induction false} CountAppend(s: seq<int>, t: seq<int>, v: int)
    ensures CountLess(s + t, v) == CountLess(s, v) + CountLess(t, v)
    ensures CountLeq(s + t, v) == CountLeq(s, v) + CountLeq(t, v)
  {
    if |s| == 0 {
      assert s + t == t;
    } else {
      assert (s + t)[1..] == s[1..] + t;
      CountAppend(s[1..], t, v);
    }
  }

  lemma {:induction false} CountBounds(s: seq<int>, v: int)
    ensures CountLess(s, v) <= CountLeq(s, v) <= |s|
  {
    if |s| > 0 {
      CountBounds(s[1..], v);
    }
  }

  lemma {:induction false} CountAllAtMost(s: seq<int>, v: int)
    requires forall i :: 0 <= i < |s| ==> s[i] <= v
    ensures CountLeq(s, v) == |s|
  {
    if |s| > 0 {
      CountAllAtMost(s[1..], v);
    }
  }

  lemma {:induction false} CountAllBelow(s: seq<int>, v: int)
    requires forall i :: 0 <= i < |s| ==> s[i] < v
    ensures CountLess(s, v) == |s| && CountLeq(s, v) == |s|
  {
    if |s| > 0 {
      CountAllBelow(s[1..], v);
    }
  }

  lemma {:induction false} CountAllAbove(s: seq<int>, v: int)
    requires forall i :: 0 <= i < |s| ==> s[i] > v
    ensures CountLess(s, v) == 0 && CountLeq(s, v) == 0
  {
    if |s| > 0 {
      CountAllAbove(s[1..], v);
    }
  }

  lemma {:induction false} CountAllAtLeast(s: seq<int>, v: int)
    requires forall i :: 0 <= i < |s| ==> s[i] >= v
    ensures CountLess(s, v) == 0
  {
    if |s| > 0 {
      CountAllAtLeast(s[1..], v);
    }
  }

  /** The counts depend only on the multiset of elements. */
  lemma {:induction false} CountPermutation(s: seq<int>, t: seq<int>, v: int)
    requires multiset(s) == multiset(t)
    ensures CountLess(s, v) == CountLess(t, v) && CountLeq(s, v) == CountLeq(t, v)
    decreases |s|
  {
    if |s| == 0 {
      assert |t| == |multiset(t)| == 0;
    } else {
      var x := s[0];
      assert x in multiset(t);
      var i :| 0 <= i < |t| && t[i] == x;
      var rest := t[..i] + t[i + 1..];
      assert t == t[..i] + [x] + t[i + 1..];
      assert s == [x] + s[1..];
      assert multiset(t) == multiset(t[..i]) + multiset{x} + multiset(t[i + 1..]);
      assert multiset(s) == multiset{x} + multiset(s[1..]);
      assert multiset(rest) == multiset(t[..i]) + multiset(t[i + 1..]);
      assert multiset(rest) + multiset{x} == multiset(t) by {
        assert forall e :: (multiset(rest) + multiset{x})[e] == multiset(t)[e];
      }
      assert multiset(s[1..]) + multiset{x} == multiset(s) by {
        assert forall e :: (multiset(s[1..]) + multiset{x})[e] == multiset(s)[e];
      }
      MultisetCancel(multiset(s[1..]), multiset(rest), multiset{x});
      CountPermutation(s[1..], rest, v);
      CountAppend(t[..i] + [x], t[i + 1..], v);
      CountAppend(t[..i], [x], v);
      CountAppend(t[..i], t[i + 1..], v);
    }
  }

  /** The k-th smallest element is unique. */
  lemma KthUnique(s: seq<int>, k: int, v: int, w: int)
    requires IsKth(s, k, v) && IsKth(s, k, w)
    ensures v == w
  {
    if v < w {
      CountMonotone(s, v, w);
    } else if w < v {
      CountMonotone(s, w, v);
    }
  }

  /** Every element at or below `v` is strictly below any larger `w`. */
  lemma {:induction false} CountMonotone(s: seq<int>, v: int, w: int)
    requires v < w
    ensures CountLeq(s, v) <= CountLess(s, w)
  {
    if |s| > 0 {
      CountMonotone(s[1..], v, w);
    }
  }

  predicate Sorted(s: seq<int>)
  {
    forall i, j :: 0 <= i < j < |s| ==> s[i] <= s[j]
  }

  /** The reference reading: in a sorted sequence the k-th smallest sits at index `k - 1`. */
  lemma SortedKth(s: seq<int>, k: int)
    requires Sorted(s) && 1 <= k <= |s|
    ensures IsKth(s, k, s[k - 1])
  {
    var x := s[k - 1];
    var left, right := s[..k - 1], s[k..];
    assert s == left + [x] + right;
    CountAppend(left + [x], right, x);
    CountAppend(left, [x], x);
    CountBounds(left, x);
    CountAllAtMost(left, x);
    CountAllAtLeast(right, x);
  }

  /** `arr[i], arr[j] = arr[j], arr[i]`. */
  function Swap(s: seq<int>, i: nat, j: nat): (r: seq<int>)
    requires i < |s| && j < |s|
    ensures |r| == |s| && r[i] == s[j] && r[j] == s[i]
    ensures forall k :: 0 <= k < |s| && k != i && k != j ==> r[k] == s[k]
    ensures multiset(r) == multiset(s)
  {
    s[i := s[j]][j := s[i]]
  }

  /** Two sequences that agree outside `[l, r]` and hold the same elements hold
      the same elements inside `[l, r]`. */
  lemma SliceMultiset(a: seq<int>, b: seq<int>, l: nat, r: nat)
    requires l <= r < |a| == |b| && multiset(a) == multiset(b)
    requires forall k :: 0 <= k < |a| && (k < l || r < k) ==> a[k] == b[k]
    ensures multiset(b[l..r + 1]) == multiset(a[l..r + 1])
  {
    assert a == a[..l] + a[l..r + 1] + a[r + 1..];
    assert b == b[..l] + b[l..r + 1] + b[r + 1..];
    assert a[..l] == b[..l];
    assert a[r + 1..] == b[r + 1..];
    var outside := multiset(a[..l]) + multiset(a[r + 1..]);
    assert multiset(a) == multiset(a[l..r + 1]) + outside;
    assert multiset(b) == multiset(b[l..r + 1]) + outside;
    MultisetCancel(multiset(b[l..r + 1]), multiset(a[l..r + 1]), outside);
  }

  lemma MultisetCancel(x: multiset<int>, y: multiset<int>, z: multiset<int>)
    requires x + z == y + z
    ensures x == y
  {
    assert forall e :: x[e] == (x + z)[e] - z[e];
    assert forall e :: y[e] == (y + z)[e] - z[e];
  }

  /** `partition(arr, l, r)`: with pivot `x = arr[r]`, move every element of
      `arr[l..r-1]` that is at most `x` to the front of the slice, then swap the
      pivot in after them. Returns the pivot's final index. */
  method Partition(a: seq<int>, l: nat, r: nat) returns (b: seq<int>, p: nat)
    requires l <= r < |a|
    ensures |b| == |a| && l <= p <= r
    ensures b[p] == a[r]
    ensures forall i :: l <= i < p ==> b[i] <= b[p]
    ensures forall i :: p < i <= r ==> b[i] > b[p]
    ensures forall i :: 0 <= i < |a| && (i < l || r < i) ==> b[i] == a[i]
    ensures multiset(b[l..r + 1]) == multiset(a[l..r + 1])
  {
    var x := a[r];
    b := a;
    var i := l;
    for j := l to r
      invariant l <= i <= j <= r
      invariant |b| == |a| && b[r] == x
      invariant forall k :: l <= k < i ==> b[k] <= x
      invariant forall k :: i <= k < j ==> b[k] > x
      invariant forall k :: 0 <= k < |a| && (k < l || r < k) ==> b[k] == a[k]
      invariant multiset(b) == multiset(a)
    {
      if b[j] <= x {
        b := Swap(b, i, j);
        i := i + 1;
      }
    }
    b := Swap(b, i, r);
    p := i;
    SliceMultiset(a, b, l, r);
  }

  /** `kthSmallest(arr, l, r, k)`: the k-th smallest element of `arr[l..r]`
      (inclusive), found by partitioning and recursing into the side that holds
      it; `NameError` for `k` outside `1..r-l+1`, with the list untouched. */
  method KthSmallest(a: seq<int>, l: nat, r: int, k: int) returns (res: Result<int, SelectError>, b: seq<int>)
    requires r < |a|
    ensures res.Err? <==> !(0 < k <= r - l + 1)
    ensures res.Err? ==> b == a
    ensures res.Ok? ==> |b| == |a| && IsKth(a[l..r + 1], k, res.value)
    ensures res.Ok? ==> multiset(b[l..r + 1]) == multiset(a[l..r + 1])
    ensures res.Ok? ==> forall i :: 0 <= i < |a| && (i < l || r < i) ==> b[i] == a[i]
    decreases r - l + 1
  {
    if !(0 < k <= r - l + 1) {
      return Err(NameError), a;
    }
    var p;
    b, p := Partition(a, l, r);
    if p - l == k - 1 {
      PivotIsKth(a, b, l, r, p);
      return Ok(b[p]), b;
    }
    var c;
    if p - l > k - 1 {
      res, c := KthSmallest(b, l, p - 1, k);
      LeftSide(a, b, c, l, r, p, k, res.value);
    } else {
      res, c := KthSmallest(b, p + 1, r, k - p + l - 1);
      RightSide(a, b, c, l, r, p, k, res.value);
    }
    b := c;
  }

  /** The pivot at position `p` of a partitioned slice is its `(p - l + 1)`-th smallest. */
  lemma PivotIsKth(a: seq<int>, b: seq<int>, l: nat, r: nat, p: nat)
    requires l <= p <= r < |a| == |b|
    requires multiset(b[l..r + 1]) == multiset(a[l..r + 1])
    requires forall i :: l <= i < p ==> b[i] <= b[p]
    requires forall i :: p < i <= r ==> b[i] > b[p]
    ensures IsKth(a[l..r + 1], p - l + 1, b[p])
  {
    var x := b[p];
    var left, right := b[l..p], b[p + 1..r + 1];
    assert b[l..r + 1] == left + [x] + right;
    CountPermutation(a[l..r + 1], b[l..r + 1], x);
    CountAppend(left + [x], right, x);
    CountAppend(left, [x], x);
    CountBounds(left, x);
    CountAllAtMost(left, x);
    CountAllAbove(right, x);
    assert x in b[l..r + 1];
    assert x in multiset(a[l..r + 1]);
  }

  /** After recursing into the left side, the answer is the k-th smallest of the whole slice. */
  lemma LeftSide(a: seq<int>, b: seq<int>, c: seq<int>, l: nat, r: nat, p: nat, k: int, v: int)
    requires l <= p <= r < |a| == |b| == |c| && 0 < k <= p - l
    requires multiset(b[l..r + 1]) == multiset(a[l..r + 1])
    requires forall i :: l <= i < p ==> b[i] <= b[p]
    requires forall i :: p < i <= r ==> b[i] > b[p]
    requires forall i :: 0 <= i < |a| && (i < l || r < i) ==> b[i] == a[i]
    requires IsKth(b[l..p], k, v) && multiset(c[l..p]) == multiset(b[l..p])
    requires forall i :: 0 <= i < |b| && (i < l || p - 1 < i) ==> c[i] == b[i]
    ensures IsKth(a[l..r + 1], k, v)
    ensures multiset(c[l..r + 1]) == multiset(a[l..r + 1])
    ensures forall i :: 0 <= i < |a| && (i < l || r < i) ==> c[i] == a[i]
  {
    var x := b[p];
    var left, right := c[l..p], b[p + 1..r + 1];
    assert c[l..r + 1] == left + [x] + right;
    assert b[l..r + 1] == b[l..p] + [x] + right;
    assert v in multiset(b[l..p]);
    assert v <= x;
    assert v in left by { assert v in multiset(left); }
    CountPermutation(b[l..p], left, v);
    CountAppend(left + [x], right, v);
    CountAppend(left, [x], v);
    CountAllAbove(right, v);
    assert multiset(c[l..r + 1]) == multiset(b[l..r + 1]);
    CountPermutation(a[l..r + 1], c[l..r + 1], v);
    assert v in multiset(a[l..r + 1]);
  }

  /** After recursing into the right side, the answer is the k-th smallest of the whole slice. */
  lemma RightSide(a: seq<int>, b: seq<int>, c: seq<int>, l: nat, r: nat, p: nat, k: int, v: int)
    requires l <= p <= r < |a| == |b| == |c| && p - l + 1 < k <= r - l + 1
    requires multiset(b[l..r + 1]) == multiset(a[l..r + 1])
    requires forall i :: l <= i < p ==> b[i] <= b[p]
    requires forall i :: p < i <= r ==> b[i] > b[p]
    requires forall i :: 0 <= i < |a| && (i < l || r < i) ==> b[i] == a[i]
    requires IsKth(b[p + 1..r + 1], k - p + l - 1, v) && multiset(c[p + 1..r + 1]) == multiset(b[p + 1..r + 1])
    requires forall i :: 0 <= i < |b| && (i < p + 1 || r < i) ==> c[i] == b[i]
    ensures IsKth(a[l..r + 1], k, v)
    ensures multiset(c[l..r + 1]) == multiset(a[l..r + 1])
    ensures forall i :: 0 <= i < |a| && (i < l || r < i) ==> c[i] == a[i]
  {
    var x := b[p];
    var left, right := b[l..p], c[p + 1..r + 1];
    assert c[l..r + 1] == left + [x] + right;
    assert b[l..r + 1] == left + [x] + b[p + 1..r + 1];
    assert v in multiset(b[p + 1..r + 1]);
    assert v > x;
    assert v in right by { assert v in multiset(right); }
    CountPermutation(b[p + 1..r + 1], right, v);
    CountAppend(left + [x], right, v);
    CountAppend(left, [x], v);
    CountAllBelow(left, v);
    assert multiset(c[l..r + 1]) == multiset(b[l..r + 1]);
    CountPermutation(a[l..r + 1], c[l..r + 1], v);
    assert v in multiset(a[l..r + 1]);
  }
}

=== FILE: seqs.dfy ===
/** Sums and slices over integer sequences, shared by the statistics, the caches
    and the trace tools. */
module Seqs {

  /** Python's `sum(xs)`. */
  function Sum(xs: seq<int>): int
  {
    if |xs| == 0 then 0 else Sum(xs[..|xs| - 1]) + xs[|xs| - 1]
  }

  /** Python's slice `xs[start:]` for a non-negative start: empty once start passes the end. */
  function Drop<T>(xs: seq<T>, start: nat): (r: seq<T>)
    ensures start <= |xs| ==> r == xs[start..]
    ensures start >= |xs| ==> r == []
  {
    if start <= |xs| then xs[start..] else []
  }

  lemma {:induction false} SumAppend(xs: seq<int>, ys: seq<int>)
    ensures Sum(xs + ys) == Sum(xs) + Sum(ys)
    decreases |ys|
  {
    if |ys| == 0 {
      assert xs + ys == xs;
    } else {
      var ys' := ys[..|ys| - 1];
      assert (xs + ys)[..|xs + ys| - 1] == xs + ys';
      SumAppend(xs, ys');
    }
  }

  lemma SumSingleton(x: int)
    ensures Sum([x]) == x
  {
    assert [x][..0] == [];
  }

  /** A sum of non-negative entries is non-negative. */
  lemma {:induction false} SumNonNegative(xs: seq<int>)
    requires forall i :: 0 <= i < |xs| ==> xs[i] >= 0
    ensures Sum(xs) >= 0
    decreases |xs|
  {
    if |xs| > 0 {
      SumNonNegative(xs[..|xs| - 1]);
    }
  }

  /** A sum of zeros is zero. */
  lemma {:induction false} SumZeros(xs: seq<int>)
    requires forall i :: 0 <= i < |xs| ==> xs[i] == 0
    ensures Sum(xs) == 0
    decreases |xs|
  {
    if |xs| > 0 {
      SumZeros(xs[..|xs| - 1]);
    }
  }

  /** Summing pointwise-smaller entries gives a smaller sum. */
  lemma {:induction false} SumMonotone(xs: seq<int>, ys: seq<int>)
    requires |xs| == |ys|
    requires forall i :: 0 <= i < |xs| ==> xs[i] <= ys[i]
    ensures Sum(xs) <= Sum(ys)
    decreases |xs|
  {
    if |xs| > 0 {
      SumMonotone(xs[..|xs| - 1], ys[..|ys| - 1]);
    }
  }
}

=== FILE: simulation.dfy ===
/** The trace-driven simulation: per-segment statistics and the `tick` step that
    feeds one request through a caching system. The caching system is abstract:
    `get` returns the lookup result (`None` on a miss) and the system's next
    state, `put` the system's next state. */
module Simulation {
  import opened Wrappers
  import Seqs
  import opened Traces
  import Arith

  /** `SegmentStatistics`: the counters of the open segment and, in lockstep, the
      lists of counters of the segments recorded so far. */
  datatype SegmentStatistics = SegmentStatistics(
    totalCountList: seq<int>,
    totalBytesList: seq<int>,
    missCountList: seq<int>,
    missBytesList: seq<int>,
    totalCount: int,
    missCount: int,
    totalBytes: int,
    missBytes: int)

  function NewStatistics(): SegmentStatistics
  {
    SegmentStatistics([], [], [], [], 0, 0, 0, 0)
  }

  /** The four lists have one entry per recorded segment. */
  predicate Lockstep(st: SegmentStatistics)
  {
    && |st.totalBytesList| == |st.totalCountList|
    && |st.missCountList| == |st.totalCountList|
    && |st.missBytesList| == |st.totalCountList|
  }

  /** `record_segment`: the open counters become the last entries of the lists and
      restart from zero. Nothing is lost: each list's sum plus its open counter is
      the same before and after. */
  function RecordSegment(st: SegmentStatistics): (r: SegmentStatistics)
    ensures Lockstep(st) ==> Lockstep(r)
    ensures |r.totalCountList| == |st.totalCountList| + 1 && |r.totalBytesList| == |st.totalBytesList| + 1
    ensures |r.missCountList| == |st.missCountList| + 1 && |r.missBytesList| == |st.missBytesList| + 1
    ensures r.totalCountList[..|st.totalCountList|] == st.totalCountList
    ensures r.totalBytesList[..|st.totalBytesList|] == st.totalBytesList
    ensures r.missCountList[..|st.missCountList|] == st.missCountList
    ensures r.missBytesList[..|st.missBytesList|] == st.missBytesList
    ensures r.totalCountList[|st.totalCountList|] == st.totalCount
    ensures r.missCountList[|st.missCountList|] == st.missCount
    ensures r.totalBytesList[|st.totalBytesList|] == st.totalBytes
    ensures r.missBytesList[|st.missBytesList|] == st.missBytes
    ensures r.totalCount == 0 && r.missCount == 0 && r.totalBytes == 0 && r.missBytes == 0
    ensures Seqs.Sum(r.totalCountList) + r.totalCount == Seqs.Sum(st.totalCountList) + st.totalCount
    ensures Seqs.Sum(r.totalBytesList) + r.totalBytes == Seqs.Sum(st.totalBytesList) + st.totalBytes
    ensures Seqs.Sum(r.missCountList) + r.missCount == Seqs.Sum(st.missCountList) + st.missCount
    ensures Seqs.Sum(r.missBytesList) + r.missBytes == Seqs.Sum(st.missBytesList) + st.missBytes
  {
    var r := SegmentStatistics(
      st.totalCountList + [st.totalCount],
      st.totalBytesList + [st.totalBytes],
      st.missCountList + [st.missCount],
      st.missBytesList + [st.missBytes],
      0, 0, 0, 0);
    assert r.totalCountList[..|st.totalCountList|] == st.totalCountList;
    assert r.totalBytesList[..|st.totalBytesList|] == st.totalBytesList;
    assert r.missCountList[..|st.missCountList|] == st.missCountList;
    assert r.missBytesList[..|st.missBytesList|] == st.missBytesList;
    r
  }

  /** `update_miss`: one more missed request and its bytes in the open segment. */
  function UpdateMiss(st: SegmentStatistics, request: Request): (r: SegmentStatistics)
    ensures r.missCount == st.missCount + 1 && r.missBytes == st.missBytes + request.size
    ensures r == st.(missCount := r.missCount, missBytes := r.missBytes)
  {
    st.(missCount := st.missCount + 1, missBytes := st.missBytes + request.size)
  }

  /** `update_req`: one more request and its bytes in the open segment. */
  function UpdateReq(st: SegmentStatistics, request: Request): (r: SegmentStatistics)
    ensures r.totalCount == st.totalCount + 1 && r.totalBytes == st.totalBytes + request.size
    ensures r == st.(totalCount := r.totalCount, totalBytes := r.totalBytes)
  {
    st.(totalCount := st.totalCount + 1, totalBytes := st.totalBytes + request.size)
  }

  /** The exceptions of the statistics and the step: `ZeroDivisionError` from a
      ratio with a zero denominator or from `index % 0`, `AssertionError` from a
      warm-up percentage outside `[0, 100)`, and the `TypeError` of a call with
      the wrong number of arguments. */
  datatype SimError = ZeroDivision | WarmupOutOfRange | WrongArgumentCount

  /** `a / b` on Python numbers, as an exact quotient. */
  function Ratio(numerator: int, denominator: int): (r: Result<real, SimError>)
    ensures r.Err? <==> denominator == 0
    ensures r.Ok? ==> r.value * denominator as real == numerator as real
  {
    if denominator == 0 then Err(ZeroDivision) else Ok(numerator as real / denominator as real)
  }

  /** `curr_bmr`: byte miss ratio of the open segment. */
  function CurrBmr(st: SegmentStatistics): Result<real, SimError>
  {
    Ratio(st.missBytes, st.totalBytes)
  }

  /** `curr_omr`: object miss ratio of the open segment. */
  function CurrOmr(st: SegmentStatistics): Result<real, SimError>
  {
    Ratio(st.missCount, st.totalCount)
  }

  /** `int(n * warmup / 100)`: the first recorded segment that counts after warm-up,
      the floor of `warmup` percent of `n`. */
  function WarmupStart(n: nat, warmup: int): (start: nat)
    requires 0 <= warmup < 100
    ensures start * 100 <= n * warmup < (start + 1) * 100
    ensures start <= n && (n > 0 ==> start < n)
  {
    WarmupBelowCount(n, warmup);
    (n * warmup) / 100
  }

  lemma WarmupBelowCount(n: nat, warmup: int)
    requires 0 <= warmup < 100
    ensures 0 <= (n * warmup) / 100 <= n
    ensures n > 0 ==> (n * warmup) / 100 < n
    ensures ((n * warmup) / 100) * 100 <= n * warmup < ((n * warmup) / 100 + 1) * 100
  {
    var x := n * warmup;
    assert 0 <= x <= n * 99;
    assert n * 99 < n * 100 || n == 0;
    assert x == (x / 100) * 100 + x % 100;
  }

  /** No warm-up starts at the first segment. */
  lemma NoWarmupStartsAtZero(n: nat)
    ensures WarmupStart(n, 0) == 0
  {
    assert n * 0 == 0;
  }

  /** The ratio of two lists' sums over the segments after warm-up. */
  function WarmRatio(st: SegmentStatistics, warmup: int, misses: seq<int>, totals: seq<int>): (r: Result<real, SimError>)
  {
    if !(0 <= warmup < 100) then Err(WarmupOutOfRange)
    else
      var start := WarmupStart(|st.totalCountList|, warmup);
      Ratio(Seqs.Sum(Seqs.Drop(misses, start)), Seqs.Sum(Seqs.Drop(totals, start)))
  }

  /** `bmr(warmup)`: byte miss ratio over the segments after the first `warmup`
      percent of them. */
  function Bmr(st: SegmentStatistics, warmup: int): (r: Result<real, SimError>)
    ensures !(0 <= warmup < 100) <==> r == Err(WarmupOutOfRange)
  {
    WarmRatio(st, warmup, st.missBytesList, st.totalBytesList)
  }

  /** `omr(warmup)`: object miss ratio over the segments after the first `warmup`
      percent of them. */
  function Omr(st: SegmentStatistics, warmup: int): (r: Result<real, SimError>)
    ensures !(0 <= warmup < 100) <==> r == Err(WarmupOutOfRange)
  {
    WarmRatio(st, warmup, st.missCountList, st.totalCountList)
  }

  /** Without warm-up every recorded segment counts. */
  lemma NoWarmupCoversAll(st: SegmentStatistics)
    requires Seqs.Sum(st.totalBytesList) != 0 && Seqs.Sum(st.totalCountList) != 0
    ensures Bmr(st, 0) == Ok(Seqs.Sum(st.missBytesList) as real / Seqs.Sum(st.totalBytesList) as real)
    ensures Omr(st, 0) == Ok(Seqs.Sum(st.missCountList) as real / Seqs.Sum(st.totalCountList) as real)
  {
    NoWarmupStartsAtZero(|st.totalCountList|);
    assert Seqs.Drop(st.missBytesList, 0) == st.missBytesList;
    assert Seqs.Drop(st.totalBytesList, 0) == st.totalBytesList;
    assert Seqs.Drop(st.missCountList, 0) == st.missCountList;
    assert Seqs.Drop(st.totalCountList, 0) == st.totalCountList;
  }

  /** With a valid warm-up both ratios are taken over the segments from
      `floor(len * warmup / 100)` on: the sum of the misses there over the sum of
      the totals there, and `ZeroDivisionError` exactly when the latter is 0. */
  lemma WarmRatios(st: SegmentStatistics, warmup: int, start: nat)
    requires 0 <= warmup < 100
    requires start * 100 <= |st.totalCountList| * warmup < (start + 1) * 100
    ensures var t := Seqs.Sum(Seqs.Drop(st.totalBytesList, start));
      Bmr(st, warmup) == if t == 0 then Err(ZeroDivision)
        else Ok(Seqs.Sum(Seqs.Drop(st.missBytesList, start)) as real / t as real)
    ensures var t := Seqs.Sum(Seqs.Drop(st.totalCountList, start));
      Omr(st, warmup) == if t == 0 then Err(ZeroDivision)
        else Ok(Seqs.Sum(Seqs.Drop(st.missCountList, start)) as real / t as real)
  {
    FloorUnique(|st.totalCountList| * warmup, start, WarmupStart(|st.totalCountList|, warmup));
  }

  /** The floor of `x / 100` is the only `q` with `100 q <= x < 100 (q + 1)`. */
  lemma FloorUnique(x: int, q1: int, q2: int)
    requires q1 * 100 <= x < (q1 + 1) * 100
    requires q2 * 100 <= x < (q2 + 1) * 100
    ensures q1 == q2
  {
  }

  /** Every recorded segment's misses lie between zero and its totals. */
  predicate SoundSegments(st: SegmentStatistics)
    requires Lockstep(st)
  {
    && (forall j :: 0 <= j < |st.totalCountList| ==> 0 <= st.missCountList[j] <= st.totalCountList[j])
    && (forall j :: 0 <= j < |st.totalCountList| ==> 0 <= st.missBytesList[j] <= st.totalBytesList[j])
  }

  /** With sound segments, both warm-up ratios are fractions in `[0, 1]`. */
  lemma RatiosAreFractions(st: SegmentStatistics, warmup: int)
    requires Lockstep(st) && SoundSegments(st)
    ensures Bmr(st, warmup).Ok? ==> 0.0 <= Bmr(st, warmup).value <= 1.0
    ensures Omr(st, warmup).Ok? ==> 0.0 <= Omr(st, warmup).value <= 1.0
  {
    if 0 <= warmup < 100 {
      var start := WarmupStart(|st.totalCountList|, warmup);
      SuffixFraction(st.missBytesList, st.totalBytesList, start);
      SuffixFraction(st.missCountList, st.totalCountList, start);
    }
  }

  lemma SuffixFraction(misses: seq<int>, totals: seq<int>, start: nat)
    requires |misses| == |totals| && start <= |totals|
    requires forall j :: 0 <= j < |totals| ==> 0 <= misses[j] <= totals[j]
    ensures var m := Seqs.Sum(Seqs.Drop(misses, start));
      var t := Seqs.Sum(Seqs.Drop(totals, start));
      t != 0 ==> 0.0 <= m as real / t as real <= 1.0
  {
    var ms := misses[start..];
    var ts := totals[start..];
    Seqs.SumNonNegative(ms);
    Seqs.SumMonotone(ms, ts);
    var m := Seqs.Sum(ms);
    var t := Seqs.Sum(ts);
    if t != 0 {
      assert 0 <= m <= t;
      FractionBound(m, t);
    }
  }

  lemma FractionBound(m: int, t: int)
    requires 0 <= m <= t && t != 0
    ensures 0.0 <= m as real / t as real <= 1.0
  {
    assert (m as real / t as real) * t as real == m as real;
  }

  /** A callback invocation: `on_hit_callback` or `on_miss_callback` with the request. */
  datatype Event = Hit(request: Request) | Miss(request: Request)

  /** The simulation: the caching system's state, the statistics, the index of the
      next request, the requests still to come, and the callbacks made so far. */
  datatype Sim<S> = Sim(system: S, stats: SegmentStatistics, index: nat, trace: seq<Request>, events: seq<Event>)

  function NewSim<S>(system: S, trace: seq<Request>): Sim<S>
  {
    Sim(system, NewStatistics(), 0, trace, [])
  }

  /** The open segment with one more request counted, a miss when `miss`. */
  function Count(st: SegmentStatistics, request: Request, miss: bool): SegmentStatistics
  {
    UpdateReq(if miss then UpdateMiss(st, request) else st, request)
  }

  /** The ratios the segment-boundary log call receives: `curr_bmr()` is
      evaluated first, then `curr_omr()`; either raises `ZeroDivisionError` on an
      open segment without bytes or without requests. */
  function LogRatios(st: SegmentStatistics): (r: Result<(real, real), SimError>)
    ensures r.Err? <==> st.totalBytes == 0 || st.totalCount == 0
    ensures r.Err? ==> r.error == ZeroDivision
    ensures r.Ok? ==> r.value.0 * st.totalBytes as real == st.missBytes as real
    ensures r.Ok? ==> r.value.1 * st.totalCount as real == st.missCount as real
  {
    match CurrBmr(st)
    case Err(e) => Err(e)
    case Ok(bmr) =>
      match CurrOmr(st)
      case Err(e) => Err(e)
      case Ok(omr) => Ok((bmr, omr))
  }

  /** The statistics after request number `index` (zero-based) was counted,
      a miss when `miss`: the open segment closes after every nonzero index
      divisible by `window`. */
  function Advance(st: SegmentStatistics, request: Request, miss: bool, index: nat, window: int): (r: SegmentStatistics)
    requires index != 0 ==> window != 0
  {
    var counted := Count(st, request, miss);
    if index != 0 && index % window == 0 then RecordSegment(counted) else counted
  }

  /** `Simulation.tick` with the segment-boundary log call taking its four
      arguments. At end of stream: record the open segment and answer false.
      Otherwise: look the request up; on `None` count a miss, `put` the request
      and call the miss callback, else call the hit callback; count the request;
      after index `i` with `i != 0 && i % window == 0` evaluate the ratios to
      log, which raises `ZeroDivisionError` on a segment without bytes, and
      record the segment; advance the index and answer true. */
  function Tick<S, O>(sim: Sim<S>, window: int, get: (S, Request) -> (Option<O>, S), put: (S, Request) -> S)
    : (r: Result<(bool, Sim<S>), SimError>)
    ensures r.Err? <==>
              && |sim.trace| > 0 && sim.index != 0
              && (|| window == 0
                  || (&& sim.index % window == 0
                      && var counted := Count(sim.stats, sim.trace[0], get(sim.system, sim.trace[0]).0.None?);
                      counted.totalBytes == 0 || counted.totalCount == 0))
    ensures r.Err? ==> r.error == ZeroDivision
    ensures r.Ok? && !r.value.0 <==> |sim.trace| == 0
    ensures |sim.trace| == 0 ==> r == Ok((false, sim.(stats := RecordSegment(sim.stats))))
    ensures r.Ok? && r.value.0 ==>
              var request := sim.trace[0];
              var (found, s1) := get(sim.system, request);
              var next := r.value.1;
              && next.index == sim.index + 1
              && next.trace == sim.trace[1..]
              && next.system == (if found.None? then put(s1, request) else s1)
              && next.events == sim.events + [if found.None? then Miss(request) else Hit(request)]
              && next.stats == Advance(sim.stats, request, found.None?, sim.index, window)
  {
    if |sim.trace| == 0 then Ok((false, sim.(stats := RecordSegment(sim.stats))))
    else
      var request := sim.trace[0];
      var (found, s1) := get(sim.system, request);
      var s2 := if found.None? then put(s1, request) else s1;
      var event := if found.None? then Miss(request) else Hit(request);
      if sim.index != 0 && window == 0 then Err(ZeroDivision)
      else
        var counted := Count(sim.stats, request, found.None?);
        if sim.index != 0 && sim.index % window == 0 && LogRatios(counted).Err? then Err(LogRatios(counted).error)
        else
          var stats := Advance(sim.stats, request, found.None?, sim.index, window);
          Ok((true, Sim(s2, stats, sim.index + 1, sim.trace[1..], sim.events + [event])))
  }

  /** `Simulation.run` without the timing and the result payload: tick until a
      tick answers false. */
  function Run<S, O>(sim: Sim<S>, window: int, get: (S, Request) -> (Option<O>, S), put: (S, Request) -> S)
    : Result<Sim<S>, SimError>
    decreases |sim.trace|
  {
    match Tick(sim, window, get, put)
    case Err(e) => Err(e)
    case Ok((more, next)) => if more then Run(next, window, get, put) else Ok(next)
  }

  // ---------------------------------------------------------------------------
  // Windowing: which requests land in which recorded segment
  // ---------------------------------------------------------------------------

  /** The statistics after the first `i` requests of a run with segment length `w`:
      one segment recorded per boundary index `w, 2w, ...` below `i`; the first
      holds `w + 1` requests, the later ones `w`; the open one the rest. */
  ghost predicate Shaped(st: SegmentStatistics, w: int, i: nat)
    requires w > 0
  {
    var b := |st.totalCountList|;
    && Lockstep(st)
    && b == (if i == 0 then 0 else (i - 1) / w)
    && st.totalCount == (if b == 0 then i else i - 1 - b * w)
    && (forall j :: 0 <= j < b ==> st.totalCountList[j] == (if j == 0 then w + 1 else w))
  }

  /** Misses never exceed totals, in the recorded segments and in the open one. */
  ghost predicate Sound(st: SegmentStatistics)
  {
    && Lockstep(st)
    && SoundSegments(st)
    && 0 <= st.missCount <= st.totalCount
    && 0 <= st.missBytes <= st.totalBytes
  }

  /** Recorded plus open counters account for exactly the processed requests. */
  ghost predicate Accounts(st: SegmentStatistics, processed: seq<Request>)
  {
    && Seqs.Sum(st.totalCountList) + st.totalCount == |processed|
    && Seqs.Sum(st.totalBytesList) + st.totalBytes == Seqs.Sum(Sizes(processed))
  }

  predicate NonNegativeSizes(requests: seq<Request>)
  {
    forall i :: 0 <= i < |requests| ==> requests[i].size >= 0
  }

  /** Index `i >= 1` closes a segment exactly when `(i - 1) / w` and `i / w` differ. */
  lemma BoundaryArithmetic(i: nat, w: int)
    requires w > 0 && i >= 1
    ensures i % w == 0 ==> (i - 1) / w + 1 == i / w && i - 1 - ((i - 1) / w) * w == w - 1
    ensures i % w != 0 ==> (i - 1) / w == i / w
  {
    var q := i / w;
    var r := i % w;
    assert i == q * w + r;
    if r == 0 {
      assert q >= 1;
      assert i - 1 == (q - 1) * w + (w - 1);
      Arith.DivModUnique(i - 1, w, q - 1, w - 1);
    } else {
      assert i - 1 == q * w + (r - 1);
      Arith.DivModUnique(i - 1, w, q, r - 1);
    }
  }

  /** Counting one request keeps the segment layout. */
  lemma AdvanceShaped(st: SegmentStatistics, request: Request, miss: bool, i: nat, w: int)
    requires w > 0 && Shaped(st, w, i)
    ensures Shaped(Advance(st, request, miss, i, w), w, i + 1)
  {
    var counted := UpdateReq(if miss then UpdateMiss(st, request) else st, request);
    assert counted.totalCountList == st.totalCountList && Lockstep(counted);
    assert counted.totalCount == st.totalCount + 1;
    if i == 0 {
      assert Advance(st, request, miss, i, w) == counted;
    } else {
      BoundaryArithmetic(i, w);
      if i % w == 0 {
        assert Advance(st, request, miss, i, w) == RecordSegment(counted);
        ShapedAtBoundary(st, counted, i, w);
      } else {
        assert Advance(st, request, miss, i, w) == counted;
        ShapedInside(st, counted, i, w);
      }
    }
  }

  /** Inside a segment only the open counter moves. */
  lemma ShapedInside(st: SegmentStatistics, counted: SegmentStatistics, i: nat, w: int)
    requires w > 0 && i >= 1 && Shaped(st, w, i) && (i - 1) / w == i / w
    requires counted.totalCountList == st.totalCountList && Lockstep(counted)
    requires counted.totalCount == st.totalCount + 1
    ensures Shaped(counted, w, i + 1)
  {
    var b := |st.totalCountList|;
    var bw := b * w;
    assert st.totalCount == (if b == 0 then i else i - 1 - bw);
    assert counted.totalCount == (if b == 0 then i + 1 else i - bw);
  }

  /** At a boundary the open segment, full, is recorded and the next starts empty. */
  lemma ShapedAtBoundary(st: SegmentStatistics, counted: SegmentStatistics, i: nat, w: int)
    requires w > 0 && i >= 1 && Shaped(st, w, i)
    requires (i - 1) / w + 1 == i / w && i - 1 - ((i - 1) / w) * w == w - 1
    requires counted.totalCountList == st.totalCountList && Lockstep(counted)
    requires counted.totalCount == st.totalCount + 1
    ensures Shaped(RecordSegment(counted), w, i + 1)
  {
    var b := |st.totalCountList|;
    var bw := b * w;
    assert b == (i - 1) / w;
    assert i - 1 - bw == w - 1;
    assert (b + 1) * w == bw + w;
    assert counted.totalCount == (if b == 0 then w + 1 else w);
    var r := RecordSegment(counted);
    assert |r.totalCountList| == b + 1 == i / w;
    assert r.totalCount == 0 == i - (b + 1) * w;
    assert forall j :: 0 <= j < b ==> r.totalCountList[j] == st.totalCountList[j];
  }

  /** Counting one request of non-negative size keeps misses within totals. */
  lemma AdvanceSound(st: SegmentStatistics, request: Request, miss: bool, i: nat, w: int)
    requires w > 0 && Sound(st) && request.size >= 0
    ensures Sound(Advance(st, request, miss, i, w))
  {
    var counted := UpdateReq(if miss then UpdateMiss(st, request) else st, request);
    assert Sound(counted);
    if i != 0 && i % w == 0 {
      RecordSound(counted);
    }
  }

  /** Recording a sound open segment keeps every segment sound. */
  lemma RecordSound(st: SegmentStatistics)
    requires Sound(st)
    ensures Sound(RecordSegment(st))
  {
    var r := RecordSegment(st);
    var b := |st.totalCountList|;
    assert forall j :: 0 <= j < b ==>
      (r.totalCountList[j] == st.totalCountList[j] && r.missCountList[j] == st.missCountList[j]
       && r.totalBytesList[j] == st.totalBytesList[j] && r.missBytesList[j] == st.missBytesList[j]);
  }

  /** Counting one request accounts for it, once, with its bytes. */
  lemma AdvanceAccounts(st: SegmentStatistics, request: Request, miss: bool, i: nat, w: int, processed: seq<Request>)
    requires w > 0 && Accounts(st, processed)
    ensures Accounts(Advance(st, request, miss, i, w), processed + [request])
  {
    assert Sizes(processed + [request]) == Sizes(processed) + [request.size];
    Seqs.SumAppend(Sizes(processed), [request.size]);
    Seqs.SumSingleton(request.size);
  }

  /** The statistics a finished run leaves with segment length `w` over `n`
      requests: `(n - 1) / w + 1` segments (one, if there were no requests), all
      but the last holding the fixed counts, counts summing to `n`, and the open
      counters back at zero. */
  ghost predicate Finished(st: SegmentStatistics, w: int, trace: seq<Request>)
    requires w > 0
  {
    var n := |trace|;
    var b := |st.totalCountList|;
    && Lockstep(st)
    && b == (if n == 0 then 1 else (n - 1) / w + 1)
    && (forall j :: 0 <= j < b - 1 ==> st.totalCountList[j] == (if j == 0 then w + 1 else w))
    && Seqs.Sum(st.totalCountList) == n
    && Seqs.Sum(st.totalBytesList) == Seqs.Sum(Sizes(trace))
    && st.totalCount == 0 && st.missCount == 0 && st.totalBytes == 0 && st.missBytes == 0
  }

  /** Closing the last segment of a shaped, accounted trace finishes the run. */
  lemma RecordFinishes(st: SegmentStatistics, w: int, trace: seq<Request>)
    requires w > 0 && Shaped(st, w, |trace|) && Accounts(st, trace)
    ensures Finished(RecordSegment(st), w, trace)
  {
    var r := RecordSegment(st);
    var b := |st.totalCountList|;
    assert forall j :: 0 <= j < b ==> r.totalCountList[j] == st.totalCountList[j];
  }

  /** Where the segment closed at boundary index `i` begins: the first segment
      holds the requests at indices `0` to `w`, each later one the `w` requests
      up to `i`. */
  function SegmentStart(i: nat, w: int): nat
    requires w > 0
  {
    if i <= w then 0 else i + 1 - w
  }

  /** The bytes of the segment closed at boundary index `i`. */
  function SegmentBytes(trace: seq<Request>, i: nat, w: int): int
    requires w > 0 && i < |trace|
  {
    Seqs.Sum(Sizes(trace[SegmentStart(i, w)..i + 1]))
  }

  /** Index `i` closes a segment whose byte total is zero, so logging its byte
      miss ratio divides by zero. */
  ghost predicate EmptyBoundary(trace: seq<Request>, w: int, i: nat)
    requires w > 0 && i < |trace|
  {
    i != 0 && i % w == 0 && SegmentBytes(trace, i, w) == 0
  }

  /** No index from `from` on closes a segment without bytes. */
  ghost predicate SegmentsCarryBytes(trace: seq<Request>, w: int, from: nat)
    requires w > 0
  {
    forall i :: from <= i < |trace| ==> !EmptyBoundary(trace, w, i)
  }

  /** The open segment holds the `totalCount` requests just before index `i`, with their bytes. */
  ghost predicate OpenSegment(st: SegmentStatistics, trace: seq<Request>, i: nat)
  {
    && 0 <= st.totalCount <= i <= |trace|
    && st.totalBytes == Seqs.Sum(Sizes(trace[i - st.totalCount..i]))
  }

  /** Counting the request at index `i` extends the open segment by it; a
      boundary then starts an empty one. */
  lemma AdvanceOpen(st: SegmentStatistics, trace: seq<Request>, miss: bool, i: nat, w: int)
    requires w > 0 && i < |trace| && OpenSegment(st, trace, i)
    ensures Count(st, trace[i], miss).totalCount == st.totalCount + 1
    ensures Count(st, trace[i], miss).totalBytes == Seqs.Sum(Sizes(trace[i - st.totalCount..i + 1]))
    ensures OpenSegment(Advance(st, trace[i], miss, i, w), trace, i + 1)
  {
    var a := i - st.totalCount;
    assert Sizes(trace[a..i + 1]) == Sizes(trace[a..i]) + [trace[i].size];
    Seqs.SumAppend(Sizes(trace[a..i]), [trace[i].size]);
    Seqs.SumSingleton(trace[i].size);
    assert Sizes(trace[i + 1..i + 1]) == [];
  }

  /** At a boundary index the open segment began where `SegmentStart` says. */
  lemma BoundaryStart(st: SegmentStatistics, i: nat, w: int)
    requires w > 0 && i != 0 && i % w == 0 && Shaped(st, w, i)
    ensures i - st.totalCount == SegmentStart(i, w)
  {
    BoundaryArithmetic(i, w);
    var b := |st.totalCountList|;
    if b != 0 {
      Arith.MulAtLeast(b, w);
    }
  }

  /** Past an index that is not an empty boundary, the remaining boundaries decide. */
  lemma CarryStep(trace: seq<Request>, w: int, i: nat)
    requires w > 0 && i < |trace| && !EmptyBoundary(trace, w, i)
    ensures SegmentsCarryBytes(trace, w, i) <==> SegmentsCarryBytes(trace, w, i + 1)
  {
  }

  /** The requests and callbacks of a run so far, in trace order. */
  ghost predicate InTraceOrder(events: seq<Event>, trace: seq<Request>, n: nat)
  {
    n <= |trace| && |events| == n && forall k :: 0 <= k < n ==> events[k].request == trace[k]
  }

  /** The invariants of a run in progress after the first `sim.index` requests. */
  ghost predicate Running<S>(sim: Sim<S>, w: int, trace: seq<Request>)
    requires w > 0
  {
    && sim.index <= |trace| && sim.trace == trace[sim.index..]
    && Shaped(sim.stats, w, sim.index) && Accounts(sim.stats, trace[..sim.index])
    && InTraceOrder(sim.events, trace, sim.index)
  }

  /** One tick on a non-empty remainder fails exactly at a boundary whose segment
      holds no bytes; otherwise it keeps the invariants one request further, and
      with non-negative sizes it keeps the statistics sound. */
  lemma TickRunning<S, O>(sim: Sim<S>, w: int, get: (S, Request) -> (Option<O>, S),
                          put: (S, Request) -> S, trace: seq<Request>)
    requires w > 0 && Running(sim, w, trace) && OpenSegment(sim.stats, trace, sim.index) && |sim.trace| > 0
    ensures Tick(sim, w, get, put).Ok? <==> !EmptyBoundary(trace, w, sim.index)
    ensures Tick(sim, w, get, put).Ok? ==>
              var next := Tick(sim, w, get, put).value.1;
              && Tick(sim, w, get, put).value.0
              && Running(next, w, trace) && OpenSegment(next.stats, trace, sim.index + 1)
              && (NonNegativeSizes(trace) && Sound(sim.stats) ==> Sound(next.stats))
  {
    var i := sim.index;
    var request := sim.trace[0];
    var found := get(sim.system, request).0;
    assert request == trace[i] by { PrefixStep(trace, i); }
    TickDecides(sim, w, get, put, trace);
    if Tick(sim, w, get, put).Ok? {
      var next := Tick(sim, w, get, put).value.1;
      var event := if found.None? then Miss(request) else Hit(request);
      assert OpenSegment(next.stats, trace, i + 1) by {
        AdvanceOpen(sim.stats, trace, found.None?, i, w);
      }
      RunningNext(sim, next, event, found.None?, w, trace);
      if NonNegativeSizes(trace) && Sound(sim.stats) {
        AdvanceSound(sim.stats, request, found.None?, i, w);
      }
    }
  }

  /** A tick inside the trace fails exactly at an empty boundary: the counted
      open segment then holds the boundary's segment, and at least one request. */
  lemma TickDecides<S, O>(sim: Sim<S>, w: int, get: (S, Request) -> (Option<O>, S),
                          put: (S, Request) -> S, trace: seq<Request>)
    requires w > 0 && sim.index < |trace| && sim.trace == trace[sim.index..]
    requires Shaped(sim.stats, w, sim.index) && OpenSegment(sim.stats, trace, sim.index)
    ensures Tick(sim, w, get, put).Ok? <==> !EmptyBoundary(trace, w, sim.index)
  {
    var i := sim.index;
    var request := sim.trace[0];
    var found := get(sim.system, request).0;
    assert request == trace[i] by { PrefixStep(trace, i); }
    var counted := Count(sim.stats, request, found.None?);
    assert counted.totalCount != 0 && (i != 0 && i % w == 0 ==> counted.totalBytes == SegmentBytes(trace, i, w)) by {
      AdvanceOpen(sim.stats, trace, found.None?, i, w);
      if i != 0 && i % w == 0 {
        BoundaryStart(sim.stats, i, w);
      }
    }
  }

  /** The invariants one request further, from what a tick does to the fields. */
  lemma RunningNext<S>(sim: Sim<S>, next: Sim<S>, event: Event, miss: bool, w: int, trace: seq<Request>)
    requires w > 0 && Running(sim, w, trace) && |sim.trace| > 0
    requires event.request == sim.trace[0]
    requires next.index == sim.index + 1 && next.trace == sim.trace[1..] && next.events == sim.events + [event]
    requires next.stats == Advance(sim.stats, event.request, miss, sim.index, w)
    ensures Running(next, w, trace)
  {
    var i := sim.index;
    PrefixStep(trace, i);
    AdvanceShaped(sim.stats, event.request, miss, i, w);
    AdvanceAccounts(sim.stats, event.request, miss, i, w, trace[..i]);
    assert InTraceOrder(next.events, trace, i + 1);
  }

  /** Moving the split point of a trace one request to the right. */
  lemma PrefixStep(trace: seq<Request>, i: nat)
    requires i < |trace|
    ensures trace[i..][0] == trace[i]
    ensures trace[..i] + [trace[i]] == trace[..i + 1]
    ensures trace[i..][1..] == trace[i + 1..]
  {
  }

  lemma {:induction false} RunFrom<S, O>(sim: Sim<S>, w: int, get: (S, Request) -> (Option<O>, S),
                                        put: (S, Request) -> S, trace: seq<Request>)
    requires w > 0 && Running(sim, w, trace) && OpenSegment(sim.stats, trace, sim.index)
    requires NonNegativeSizes(trace) ==> Sound(sim.stats)
    ensures Run(sim, w, get, put).Ok? <==> SegmentsCarryBytes(trace, w, sim.index)
    ensures Run(sim, w, get, put).Err? ==> Run(sim, w, get, put).error == ZeroDivision
    ensures Run(sim, w, get, put).Ok? ==>
              var last := Run(sim, w, get, put).value;
              && Finished(last.stats, w, trace) && InTraceOrder(last.events, trace, |trace|)
              && (NonNegativeSizes(trace) ==> Sound(last.stats))
    decreases |sim.trace|
  {
    if |sim.trace| == 0 {
      assert trace[..sim.index] == trace;
      RecordFinishes(sim.stats, w, trace);
      if NonNegativeSizes(trace) {
        RecordSound(sim.stats);
      }
      assert Run(sim, w, get, put) == Ok(sim.(stats := RecordSegment(sim.stats)));
    } else {
      TickRunning(sim, w, get, put, trace);
      if Tick(sim, w, get, put).Err? {
        assert Run(sim, w, get, put) == Err(ZeroDivision);
        assert !SegmentsCarryBytes(trace, w, sim.index);
      } else {
        var next := Tick(sim, w, get, put).value.1;
        assert Run(sim, w, get, put) == Run(next, w, get, put);
        RunFrom(next, w, get, put, trace);
        CarryStep(trace, w, sim.index);
      }
    }
  }

  /** Over a whole trace with segment length `w > 0`, a run fails, with
      `ZeroDivisionError`, exactly when a segment closed at a boundary holds no
      bytes. Otherwise the segments follow the windowing rule (the first holds
      `w + 1` requests, each later full one `w`, the final one the remainder);
      every request is counted once, with its bytes; and one callback is made
      per request, in trace order. */
  lemma RunSegments<S, O>(system: S, trace: seq<Request>, w: int,
                          get: (S, Request) -> (Option<O>, S), put: (S, Request) -> S)
    requires w > 0
    ensures Run(NewSim(system, trace), w, get, put).Ok? <==> SegmentsCarryBytes(trace, w, 0)
    ensures Run(NewSim(system, trace), w, get, put).Err? ==> Run(NewSim(system, trace), w, get, put).error == ZeroDivision
    ensures Run(NewSim(system, trace), w, get, put).Ok? ==>
      var last := Run(NewSim(system, trace), w, get, put).value;
      && Finished(last.stats, w, trace)
      && InTraceOrder(last.events, trace, |trace|)
  {
    StartRunning(system, trace, w);
    RunFrom(NewSim(system, trace), w, get, put, trace);
  }

  /** A segment of positive sizes carries bytes. */
  lemma SegmentBytesPositive(trace: seq<Request>, i: nat, w: int)
    requires w > 0 && i < |trace|
    requires forall k :: 0 <= k < |trace| ==> trace[k].size > 0
    ensures SegmentBytes(trace, i, w) > 0
  {
    var xs := Sizes(trace[SegmentStart(i, w)..i + 1]);
    Seqs.SumNonNegative(xs[..|xs| - 1]);
  }

  /** With positive sizes every segment carries bytes, so a run with segment
      length `w > 0` never fails. */
  lemma PositiveSizesRun<S, O>(system: S, trace: seq<Request>, w: int,
                               get: (S, Request) -> (Option<O>, S), put: (S, Request) -> S)
    requires w > 0 && forall k :: 0 <= k < |trace| ==> trace[k].size > 0
    ensures Run(NewSim(system, trace), w, get, put).Ok?
  {
    forall i | 0 <= i < |trace|
      ensures !EmptyBoundary(trace, w, i)
    {
      SegmentBytesPositive(trace, i, w);
    }
    RunSegments(system, trace, w, get, put);
  }

  /** A first segment of zero-byte requests makes the run raise
      `ZeroDivisionError` when that segment is logged, at index `w`. */
  lemma RunEmptySegmentFails<S, O>(system: S, trace: seq<Request>, w: int,
                                   get: (S, Request) -> (Option<O>, S), put: (S, Request) -> S)
    requires 0 < w < |trace|
    requires forall k :: 0 <= k <= w ==> trace[k].size == 0
    ensures Run(NewSim(system, trace), w, get, put) == Err(ZeroDivision)
  {
    Seqs.SumZeros(Sizes(trace[0..w + 1]));
    Arith.DivModUnique(w, w, 1, 0);
    assert EmptyBoundary(trace, w, w);
    RunSegments(system, trace, w, get, put);
  }

  /** A fresh simulation meets the run invariants before its first request. */
  lemma StartRunning<S>(system: S, trace: seq<Request>, w: int)
    requires w > 0
    ensures Running(NewSim(system, trace), w, trace) && Sound(NewSim(system, trace).stats)
    ensures OpenSegment(NewSim(system, trace).stats, trace, 0)
  {
    var sim := NewSim(system, trace);
    assert sim.index <= |trace| && sim.trace == trace[sim.index..] by { assert trace[0..] == trace; }
    assert Shaped(sim.stats, w, sim.index) && Sound(sim.stats) by { FreshStatistics(w); }
    assert Accounts(sim.stats, trace[..sim.index]) by {
      var processed := trace[..0];
      assert processed == [] && Sizes(processed) == [];
    }
    assert InTraceOrder(sim.events, trace, sim.index);
    assert Sizes(trace[0..0]) == [];
  }

  /** Empty statistics are shaped and sound for zero requests. */
  lemma FreshStatistics(w: int)
    requires w > 0
    ensures Shaped(NewStatistics(), w, 0) && Sound(NewStatistics())
  {
  }

  /** With non-negative sizes a finished run's segments are also sound: misses
      never exceed totals, in counts or bytes, in any segment. */
  lemma RunWindows<S, O>(system: S, trace: seq<Request>, w: int,
                         get: (S, Request) -> (Option<O>, S), put: (S, Request) -> S)
    requires w > 0 && NonNegativeSizes(trace)
    ensures Run(NewSim(system, trace), w, get, put).Ok? <==> SegmentsCarryBytes(trace, w, 0)
    ensures Run(NewSim(system, trace), w, get, put).Ok? ==>
      var last := Run(NewSim(system, trace), w, get, put).value;
      && Finished(last.stats, w, trace)
      && SoundSegments(last.stats)
      && InTraceOrder(last.events, trace, |trace|)
  {
    StartRunning(system, trace, w);
    RunFrom(NewSim(system, trace), w, get, put, trace);
  }

  /** A segment length of zero fails with `ZeroDivisionError` at the second
      request, after the first was served. */
  lemma RunZeroWindow<S, O>(system: S, trace: seq<Request>, get: (S, Request) -> (Option<O>, S), put: (S, Request) -> S)
    requires |trace| >= 2
    ensures Run(NewSim(system, trace), 0, get, put) == Err(ZeroDivision)
  {
    var sim := NewSim(system, trace);
    var next := Tick(sim, 0, get, put).value.1;
    assert Tick(sim, 0, get, put) == Ok((true, next));
    assert |next.trace| > 0 && next.index == 1;
  }

  // ---------------------------------------------------------------------------
  // The step as written: the segment-boundary log call
  // ---------------------------------------------------------------------------

  /** `tick` as written. At a segment boundary it evaluates `curr_bmr()` and
      `curr_omr()` and calls `log_window` with five arguments, but `log_window`
      takes four: the call raises `TypeError` (or `ZeroDivisionError` first, when
      the open segment's bytes are zero) before the segment is recorded. Away
      from boundaries it is `Tick`. */
  function TickAsWritten<S, O>(sim: Sim<S>, window: int, get: (S, Request) -> (Option<O>, S), put: (S, Request) -> S)
    : (r: Result<(bool, Sim<S>), SimError>)
    ensures |sim.trace| > 0 && sim.index != 0 && window != 0 && sim.index % window == 0 ==> r.Err?
    ensures !(|sim.trace| > 0 && sim.index != 0 && window != 0 && sim.index % window == 0)
            ==> r == Tick(sim, window, get, put)
  {
    if |sim.trace| > 0 && sim.index != 0 && window != 0 && sim.index % window == 0 then
      var request := sim.trace[0];
      var found := get(sim.system, request).0;
      match LogRatios(Count(sim.stats, request, found.None?))
      case Err(e) => Err(e)
      case Ok(_) => Err(WrongArgumentCount)
    else Tick(sim, window, get, put)
  }

  function RunAsWritten<S, O>(sim: Sim<S>, window: int, get: (S, Request) -> (Option<O>, S), put: (S, Request) -> S)
    : Result<Sim<S>, SimError>
    decreases |sim.trace|
  {
    match TickAsWritten(sim, window, get, put)
    case Err(e) => Err(e)
    case Ok((more, next)) => if more then RunAsWritten(next, window, get, put) else Ok(next)
  }

  /** As written, a run over a trace longer than one segment never finishes: it
      raises at request index `window`, the first segment boundary. */
  lemma RunAsWrittenFails<S, O>(system: S, trace: seq<Request>, w: int,
                                get: (S, Request) -> (Option<O>, S), put: (S, Request) -> S)
    requires 0 < w < |trace|
    ensures RunAsWritten(NewSim(system, trace), w, get, put).Err?
  {
    UpToBoundary(NewSim(system, trace), w, get, put);
  }

  lemma {:induction false} UpToBoundary<S, O>(sim: Sim<S>, w: int, get: (S, Request) -> (Option<O>, S), put: (S, Request) -> S)
    requires 0 < w && sim.index <= w && |sim.trace| > w - sim.index
    ensures RunAsWritten(sim, w, get, put).Err?
    decreases w - sim.index
  {
    if sim.index == w {
      Arith.DivModUnique(w, w, 1, 0);
    } else {
      Arith.DivModBelow(sim.index, w);
      var next := Tick(sim, w, get, put).value.1;
      assert TickAsWritten(sim, w, get, put) == Ok((true, next));
      UpToBoundary(next, w, get, put);
    }
  }
}

=== FILE: text.dfy ===
/** The two pieces of Python's text handling the trace tools rely on:
    `str.split` with an explicit one-character separator, and `int(str)` on a
    decimal literal. */
module Text {
  import opened Wrappers

  /** `s.split(sep)`: cuts at every occurrence of `sep`. Adjacent separators give
      empty fields and the result always has at least one field. */
  function Split(s: string, sep: char): (parts: seq<string>)
    ensures |parts| >= 1
    ensures forall i :: 0 <= i < |parts| ==> sep !in parts[i]
    decreases |s|
  {
    if |s| == 0 then [""]
    else
      var rest := Split(s[1..], sep);
      if s[0] == sep then [""] + rest
      else [[s[0]] + rest[0]] + rest[1..]
  }

  /** `sep.join(parts)`, the reference that `Split` inverts. */
  function Join(parts: seq<string>, sep: char): string
    requires |parts| >= 1
  {
    if |parts| == 1 then parts[0] else parts[0] + [sep] + Join(parts[1..], sep)
  }

  /** Joining the fields back with the separator restores the text. */
  lemma {:induction false} JoinSplit(s: string, sep: char)
    ensures Join(Split(s, sep), sep) == s
    decreases |s|
  {
    if |s| > 0 {
      var rest := Split(s[1..], sep);
      JoinSplit(s[1..], sep);
      if s[0] == sep {
        assert ([""] + rest)[1..] == rest;
      } else {
        var parts := [[s[0]] + rest[0]] + rest[1..];
        if |rest| == 1 {
          assert parts == [[s[0]] + rest[0]];
        } else {
          assert parts[1..] == rest[1..];
          assert Join(rest, sep) == rest[0] + [sep] + Join(rest[1..], sep);
        }
      }
    }
  }

  /** Splitting text that starts with a separator-free piece `a` puts `a` at the
      front of the first field. */
  lemma {:induction false} SplitPrefix(a: string, t: string, sep: char)
    requires sep !in a
    ensures Split(a + t, sep) == [a + Split(t, sep)[0]] + Split(t, sep)[1..]
    decreases |a|
  {
    if |a| > 0 {
      assert (a + t)[1..] == a[1..] + t;
      assert (a + t)[0] == a[0];
      SplitPrefix(a[1..], t, sep);
      assert [a[0]] + (a[1..] + Split(t, sep)[0]) == a + Split(t, sep)[0];
    } else {
      assert a + t == t;
      assert Split(t, sep) == [Split(t, sep)[0]] + Split(t, sep)[1..];
      assert a + Split(t, sep)[0] == Split(t, sep)[0];
    }
  }

  /** Splitting joined separator-free fields gives the fields back. */
  lemma {:induction false} SplitJoin(parts: seq<string>, sep: char)
    requires |parts| >= 1
    requires forall i :: 0 <= i < |parts| ==> sep !in parts[i]
    ensures Split(Join(parts, sep), sep) == parts
    decreases |parts|
  {
    if |parts| == 1 {
      SplitPrefix(parts[0], "", sep);
      assert Split("", sep) == [""];
      assert parts[0] + "" == parts[0];
    } else {
      var tail := Join(parts[1..], sep);
      SplitJoin(parts[1..], sep);
      SplitPrefix(parts[0], [sep] + tail, sep);
      assert ([sep] + tail)[1..] == tail;
      assert Split([sep] + tail, sep) == [""] + Split(tail, sep);
      assert parts[0] + "" == parts[0];
      assert parts[0] + ([sep] + tail) == parts[0] + [sep] + tail;
      assert parts == [parts[0]] + parts[1..];
    }
  }

  /** Text without the separator is one field. */
  lemma SplitNoSeparator(s: string, sep: char)
    requires sep !in s
    ensures Split(s, sep) == [s]
  {
    SplitJoin([s], sep);
  }

  /** The first field is the text up to the first separator. */
  lemma FirstField(s: string, sep: char)
    ensures var f := Split(s, sep)[0];
      |f| <= |s| && s[..|f|] == f && (|f| == |s| || s[|f|] == sep)
  {
    var parts := Split(s, sep);
    JoinSplit(s, sep);
    if |parts| > 1 {
      assert s == parts[0] + [sep] + Join(parts[1..], sep);
      assert s[..|parts[0]|] == parts[0];
    }
  }

  /** `Join` of a list with one more field puts the separator before it. */
  lemma {:induction false} JoinSnoc(parts: seq<string>, last: string, sep: char)
    requires |parts| >= 1
    ensures Join(parts + [last], sep) == Join(parts, sep) + [sep] + last
    decreases |parts|
  {
    if |parts| == 1 {
      assert (parts + [last])[1..] == [last];
    } else {
      assert (parts + [last])[1..] == parts[1..] + [last];
      JoinSnoc(parts[1..], last, sep);
    }
  }

  /** The last field is the text after the last separator. */
  lemma LastField(s: string, sep: char)
    ensures var parts := Split(s, sep);
      var f := parts[|parts| - 1];
      |f| <= |s| && s[|s| - |f|..] == f && (|f| == |s| || s[|s| - |f| - 1] == sep)
  {
    var parts := Split(s, sep);
    var f := parts[|parts| - 1];
    JoinSplit(s, sep);
    if |parts| > 1 {
      var init := parts[..|parts| - 1];
      assert parts == init + [f];
      JoinSnoc(init, f, sep);
      assert s == Join(init, sep) + [sep] + f;
    }
  }

  /** The ASCII characters Python's `int()` strips around a literal: those for
      which `str.isspace()` holds, including the separators U+001C to U+001F. */
  predicate IsSpace(c: char)
  {
    c == ' ' || '\t' <= c <= '\r' || '\U{1C}' <= c <= '\U{1F}'
  }

  predicate IsDigit(c: char)
  {
    '0' as int <= c as int <= '9' as int
  }

  function StripLeft(s: string): (r: string)
    ensures |r| <= |s| && r == s[|s| - |r|..]
    ensures |r| > 0 ==> !IsSpace(r[0])
    decreases |s|
  {
    if |s| > 0 && IsSpace(s[0]) then StripLeft(s[1..]) else s
  }

  function StripRight(s: string): (r: string)
    ensures |r| <= |s| && r == s[..|r|]
    ensures |r| > 0 ==> !IsSpace(r[|r| - 1])
    decreases |s|
  {
    if |s| > 0 && IsSpace(s[|s| - 1]) then StripRight(s[..|s| - 1]) else s
  }

  /** `s.strip()` restricted to ASCII whitespace. */
  function Strip(s: string): (r: string)
    ensures |r| > 0 ==> !IsSpace(r[0]) && !IsSpace(r[|r| - 1])
  {
    StripRight(StripLeft(s))
  }

  /** Value of a string of decimal digits, most significant first. */
  function DigitsValue(ds: string): nat
    requires forall i :: 0 <= i < |ds| ==> IsDigit(ds[i])
  {
    if |ds| == 0 then 0
    else
      var d := ds[|ds| - 1];
      assert IsDigit(d);
      DigitsValue(ds[..|ds| - 1]) * 10 + (d as int - '0' as int)
  }

  predicate AllDigits(ds: string)
  {
    forall i :: 0 <= i < |ds| ==> IsDigit(ds[i])
  }

  /** `int(s)` for base 10: surrounding whitespace, an optional sign, then at least
      one digit; anything else is a `ValueError`, here `None`. */
  function ParseInt(s: string): (r: Option<int>)
    ensures r.Some? ==> |Strip(s)| > 0
  {
    var t := Strip(s);
    var negative := |t| > 0 && t[0] == '-';
    var digits := if |t| > 0 && (t[0] == '-' || t[0] == '+') then t[1..] else t;
    if |digits| > 0 && AllDigits(digits) then
      var v: int := DigitsValue(digits);
      Some(if negative then -v else v)
    else None
  }

  function DigitChar(d: nat): (c: char)
    requires d < 10
    ensures IsDigit(c) && c as int - '0' as int == d
  {
    (d + '0' as int) as char
  }

  /** Decimal spelling of a natural number, `str(n)`. */
  function ShowNat(n: nat): (s: string)
    ensures |s| > 0 && AllDigits(s)
  {
    if n < 10 then [DigitChar(n)] else ShowNat(n / 10) + [DigitChar(n % 10)]
  }

  /** `str(n)` for any integer. */
  function ShowInt(n: int): (s: string)
    ensures |s| > 0 && ' ' !in s && !IsSpace(s[0]) && !IsSpace(s[|s| - 1])
  {
    if n < 0 then "-" + ShowNat(-n) else ShowNat(n)
  }

  lemma {:induction false} ShowNatValue(n: nat)
    ensures DigitsValue(ShowNat(n)) == n
  {
    if n >= 10 {
      var s := ShowNat(n);
      assert s[..|s| - 1] == ShowNat(n / 10);
      ShowNatValue(n / 10);
    }
  }

  lemma StripNoSpace(s: string)
    requires |s| > 0 && !IsSpace(s[0]) && !IsSpace(s[|s| - 1])
    ensures Strip(s) == s
  {
  }

  lemma StripTrailingSpace(s: string, c: char)
    requires |s| > 0 && !IsSpace(s[0]) && !IsSpace(s[|s| - 1]) && IsSpace(c)
    ensures Strip(s + [c]) == s
  {
    assert StripLeft(s + [c]) == s + [c];
    assert (s + [c])[..|s|] == s;
    assert StripRight(s + [c]) == StripRight(s);
  }

  /** `int(str(n)) == n`, also with the line terminator a text file leaves on the last field. */
  lemma ParseShowInt(n: int)
    ensures ParseInt(ShowInt(n)) == Some(n)
    ensures ParseInt(ShowInt(n) + "\n") == Some(n)
  {
    var s := ShowInt(n);
    assert Strip(s) == s by { StripNoSpace(s); }
    assert Strip(s + "\n") == s by { StripTrailingSpace(s, '\n'); }
    ParseStripped(s, n);
    ParseStripped(s + "\n", n);
  }

  /** Whatever strips to `str(n)` parses to `n`. */
  lemma ParseStripped(s: string, n: int)
    requires Strip(s) == ShowInt(n)
    ensures ParseInt(s) == Some(n)
  {
    var t := ShowInt(n);
    if n < 0 {
      assert t[0] == '-' && t[1..] == ShowNat(-n);
      ShowNatValue(-n);
    } else {
      assert t == ShowNat(n) && IsDigit(t[0]);
      ShowNatValue(n);
    }
  }
}

=== FILE: trace_to_binary.dfy ===
/** The binary trace format. A file is a 9-byte header (`<Qs`: the key size as
    a little-endian u64, then one format byte, `Q` or `s`) followed by fixed-length
    records (`<QQ{key_size}{code}`: timestamp and size as little-endian u64, then
    the key: `key_size` u64 values for `Q`, a `key_size`-byte field for `s`). */
module TraceToBinary {
  import opened Wrappers
  import opened Text
  import opened Bytes
  import opened Traces
  import Arith

  /** The `key_type` a writer is built with: `int`, `str` or anything else. */
  datatype KeyTypeArg = IntType | StrType | OtherType

  /** The struct code of the key field. */
  datatype Code = Q | S

  /** The exceptions of the writer and the reader: a text field missing or not an
      integer, `struct.error` from packing or unpacking, the bare `Exception` for an
      unsupported key type, and a header naming a struct code other than `Q` or `s`. */
  datatype BinError = Parse(error: ParseError) | StructError | UnsupportedKeyType | UnsupportedCode(code: byte)

  /** The header's format byte: `"Q".encode()` or `"s".encode()`. */
  function CodeByte(code: Code): byte
  {
    match code
    case Q => 81
    case S => 115
  }

  /** Length of one record, `struct.calcsize("<QQ{key_size}{code}")`. */
  function RecordLength(code: Code, keySize: nat): (n: nat)
    ensures n >= 16
  {
    match code
    case Q => 16 + 8 * keySize
    case S => 16 + keySize
  }

  datatype Writer = Writer(keySize: nat, code: Code)

  /** `BinTraceWriter.__init__`: `int` keys take code `Q`, `str` keys code `s`,
      anything else raises; a negative key size makes the record format
      unparsable, so `struct.calcsize` raises. */
  function NewWriter(keySize: int, keyType: KeyTypeArg): (r: Result<Writer, BinError>)
    ensures keyType == OtherType ==> r == Err(UnsupportedKeyType)
    ensures keyType != OtherType ==> (r.Ok? <==> keySize >= 0)
    ensures r.Ok? ==> r.value.keySize == keySize && (r.value.code == Q <==> keyType == IntType)
  {
    match keyType
    case OtherType => Err(UnsupportedKeyType)
    case _ =>
      if keySize < 0 then Err(StructError)
      else Ok(Writer(keySize, if keyType == IntType then Q else S))
  }

  /** `_write_header`: `struct.pack("<Qs", key_size, code)`; a key size of `2^64`
      or more does not fit the `Q` field. */
  function Header(w: Writer): (r: Result<seq<byte>, BinError>)
    ensures r.Ok? <==> w.keySize < U64_LIMIT
    ensures r.Ok? ==> |r.value| == 9
  {
    if w.keySize < U64_LIMIT then Ok(U64(w.keySize) + [CodeByte(w.code)]) else Err(StructError)
  }

  /** A key as `_parse_tr_line` hands it to `struct.pack`. */
  datatype KeyValue = IntKey(n: int) | BytesKey(bytes: seq<byte>)

  /** The three values `_parse_tr_line` packs, in packing order. */
  datatype Row = Row(timestamp: int, size: int, key: KeyValue)

  /** `_parse_tr_line` up to the `struct.pack` call. Python evaluates field 0, then
      field 2, then field 1: the timestamp and size are converted before the key. */
  function ParseRow(w: Writer, line: string): (r: Result<Row, BinError>)
    ensures var f := Split(line, ' ');
      r.Ok? <==> ParseInt(f[0]).Some? && |f| >= 3 && ParseInt(f[2]).Some? && (w.code == Q ==> ParseInt(f[1]).Some?)
    ensures var f := Split(line, ' ');
      ParseInt(f[0]).None? ==> r == Err(Parse(NotAnInteger(f[0])))
    ensures var f := Split(line, ' ');
      ParseInt(f[0]).Some? && |f| < 3 ==> r == Err(Parse(MissingField(2)))
    ensures var f := Split(line, ' ');
      ParseInt(f[0]).Some? && |f| >= 3 && ParseInt(f[2]).None? ==> r == Err(Parse(NotAnInteger(f[2])))
    ensures var f := Split(line, ' ');
      && ParseInt(f[0]).Some? && |f| >= 3 && ParseInt(f[2]).Some? && w.code == Q && ParseInt(f[1]).None?
      ==> r == Err(Parse(NotAnInteger(f[1])))
    ensures r.Ok? ==> |Split(line, ' ')| >= 3
    ensures r.Ok? ==> ParseInt(Split(line, ' ')[0]) == Some(r.value.timestamp)
    ensures r.Ok? ==> ParseInt(Split(line, ' ')[2]) == Some(r.value.size)
    ensures r.Ok? ==> (w.code == Q <==> r.value.key.IntKey?)
    ensures r.Ok? && w.code == Q ==> ParseInt(Split(line, ' ')[1]) == Some(r.value.key.n)
    ensures r.Ok? && w.code == S ==> r.value.key == BytesKey(Utf8(Split(line, ' ')[1]))
  {
    var fields := Split(line, ' ');
    match ParseInt(fields[0])
    case None => Err(Parse(NotAnInteger(fields[0])))
    case Some(timestamp) =>
      if |fields| < 3 then Err(Parse(MissingField(2)))
      else match ParseInt(fields[2])
        case None => Err(Parse(NotAnInteger(fields[2])))
        case Some(size) =>
          if w.code == Q then
            match ParseInt(fields[1])
            case None => Err(Parse(NotAnInteger(fields[1])))
            case Some(key) => Ok(Row(timestamp, size, IntKey(key)))
          else Ok(Row(timestamp, size, BytesKey(Utf8(fields[1]))))
  }

  predicate FitsU64(n: int)
  {
    0 <= n < U64_LIMIT
  }

  /** `struct.pack("<QQ{key_size}{code}", timestamp, size, key)`. With code `Q`
      the format asks for `2 + key_size` values and three are given, so only a key
      size of 1 packs; every `Q` value must lie in `[0, 2^64)`; an `s` field is cut
      or zero-padded to `key_size` bytes. */
  function PackRow(w: Writer, row: Row): (r: Result<seq<byte>, BinError>)
    requires (w.code == Q) == row.key.IntKey?
    ensures r.Ok? <==> FitsU64(row.timestamp) && FitsU64(row.size)
                       && (w.code == Q ==> w.keySize == 1 && FitsU64(row.key.n))
    ensures r.Ok? ==> |r.value| == RecordLength(w.code, w.keySize)
  {
    if w.code == Q && w.keySize != 1 then Err(StructError)
    else if !FitsU64(row.timestamp) || !FitsU64(row.size) then Err(StructError)
    else match row.key
      case IntKey(n) => if FitsU64(n) then Ok(U64(row.timestamp) + U64(row.size) + U64(n)) else Err(StructError)
      case BytesKey(bs) => Ok(U64(row.timestamp) + U64(row.size) + Fit(bs, w.keySize))
  }

  /** `_parse_tr_line`: one text line to one packed record. */
  function PackLine(w: Writer, line: string): (r: Result<seq<byte>, BinError>)
    ensures r.Ok? ==> |r.value| == RecordLength(w.code, w.keySize)
  {
    match ParseRow(w, line)
    case Err(e) => Err(e)
    case Ok(row) => PackRow(w, row)
  }

  /** What a file holds after a write, and the exception that stopped it, if any:
      every record is written as soon as it is packed, so a failure leaves the
      records before it in place. */
  datatype Written = Written(bytes: seq<byte>, error: Option<BinError>)

  function DumpRecords(w: Writer, lines: seq<string>): Written
  {
    if |lines| == 0 then Written([], None)
    else match PackLine(w, lines[0])
      case Err(e) => Written([], Some(e))
      case Ok(record) =>
        var rest := DumpRecords(w, lines[1..]);
        Written(record + rest.bytes, rest.error)
  }

  /** `dump`: the header once, then one record per line in order. */
  function Dump(w: Writer, lines: seq<string>): (r: Written)
    ensures w.keySize >= U64_LIMIT ==> r == Written([], Some(StructError))
    ensures w.keySize < U64_LIMIT ==> |r.bytes| >= 9 && r.bytes[..9] == Header(w).value
  {
    match Header(w)
    case Err(e) => Written([], Some(e))
    case Ok(header) =>
      var records := DumpRecords(w, lines);
      Written(header + records.bytes, records.error)
  }

  /** The record layout the reader rebuilds from a header. */
  datatype Layout = Layout(keySize: nat, code: Code)

  /** `BinTraceReader.__init__`: unpack the 9-byte header; a shorter file makes
      `unpack_from` raise. Returns the layout and the bytes after the header. */
  function ReadHeader(data: seq<byte>): (r: Result<(Layout, seq<byte>), BinError>)
    ensures |data| < 9 ==> r == Err(StructError)
    ensures r.Ok? ==> r.value.1 == data[9..] && r.value.0.keySize < U64_LIMIT
    ensures r.Ok? ==> U64(r.value.0.keySize) + [CodeByte(r.value.0.code)] == data[..9]
  {
    if |data| < 9 then Err(StructError)
    else
      var keySize := FromU64(data[..8]);
      LittleEndianOf(data[..8]);
      Pow256Eight();
      if data[8] == 81 then Ok((Layout(keySize, Q), data[9..]))
      else if data[8] == 115 then Ok((Layout(keySize, S), data[9..]))
      else Err(UnsupportedCode(data[8]))
  }

  /** The reader's view of a key: the tuple tail of `Q` values, or the bytes of an `s` field. */
  datatype KeyData = IntKeys(values: seq<int>) | KeyBytes(bytes: seq<byte>)

  /** One tuple the reader yields. */
  datatype Record = Record(timestamp: int, size: int, key: KeyData)

  /** `unpack_from` of one full record. */
  function UnpackRecord(layout: Layout, chunk: seq<byte>): Record
    requires |chunk| == RecordLength(layout.code, layout.keySize)
  {
    var key := match layout.code
      case Q => IntKeys(seq(layout.keySize, i requires 0 <= i < layout.keySize => FromU64(chunk[16 + 8 * i..24 + 8 * i]) as int))
      case S => KeyBytes(chunk[16..]);
    Record(FromU64(chunk[..8]), FromU64(chunk[8..16]), key)
  }

  /** What the reader yields, and the exception that stopped it, if any. */
  datatype ReadOut = ReadOut(records: seq<Record>, error: Option<BinError>)

  /** `BinTraceReader.__iter__`: read fixed-length chunks until the data runs out;
      a final partial chunk makes `unpack_from` raise. */
  function ReadRecords(layout: Layout, data: seq<byte>): ReadOut
    decreases |data|
  {
    var n := RecordLength(layout.code, layout.keySize);
    if |data| == 0 then ReadOut([], None)
    else if |data| < n then ReadOut([], Some(StructError))
    else
      var rest := ReadRecords(layout, data[n..]);
      ReadOut([UnpackRecord(layout, data[..n])] + rest.records, rest.error)
  }

  /** The reader raises exactly when the data after the header is not a whole
      number of records, and otherwise yields one tuple per record. */
  lemma {:induction false} ReadRecordsWhole(layout: Layout, data: seq<byte>)
    ensures var n := RecordLength(layout.code, layout.keySize);
      && (ReadRecords(layout, data).error.None? <==> |data| % n == 0)
      && |ReadRecords(layout, data).records| == |data| / n
    decreases |data|
  {
    var n := RecordLength(layout.code, layout.keySize);
    if |data| >= n {
      ReadRecordsWhole(layout, data[n..]);
      Arith.ShiftDivMod(|data|, n);
    } else if |data| > 0 {
      Arith.DivModBelow(|data|, n);
    }
  }

  /** Opening and reading a whole file. */
  function Read(data: seq<byte>): ReadOut
  {
    match ReadHeader(data)
    case Err(e) => ReadOut([], Some(e))
    case Ok((layout, body)) => ReadRecords(layout, body)
  }

  /** The tuple a row is expected to read back as: its timestamp, its size, and its
      key (an `s` key cut or padded to the key size). */
  function Expected(w: Writer, row: Row): Record
  {
    var key := match row.key
      case IntKey(n) => IntKeys([n])
      case BytesKey(bs) => KeyBytes(Fit(bs, w.keySize));
    Record(row.timestamp, row.size, key)
  }

  function ExpectedAll(w: Writer, rows: seq<Row>): (r: seq<Record>)
    ensures |r| == |rows|
    ensures forall i :: 0 <= i < |rows| ==> r[i] == Expected(w, rows[i])
  {
    if |rows| == 0 then [] else [Expected(w, rows[0])] + ExpectedAll(w, rows[1..])
  }

  /** Unpacking a packed row gives back its values. */
  lemma UnpackPackRow(w: Writer, row: Row)
    requires (w.code == Q) == row.key.IntKey? && PackRow(w, row).Ok?
    ensures UnpackRecord(Layout(w.keySize, w.code), PackRow(w, row).value) == Expected(w, row)
  {
    var bs := PackRow(w, row).value;
    assert bs[..8] == U64(row.timestamp);
    assert bs[8..16] == U64(row.size);
    U64RoundTrip(row.timestamp);
    U64RoundTrip(row.size);
    match row.key
    case IntKey(n) =>
      assert bs[16..24] == U64(n);
      U64RoundTrip(n);
      assert UnpackRecord(Layout(w.keySize, w.code), bs).key.values == [n];
    case BytesKey(_) =>
  }

  /** Reading the header a writer writes rebuilds the writer's layout. */
  lemma ReadHeaderWritten(w: Writer, rest: seq<byte>)
    requires Header(w).Ok?
    ensures ReadHeader(Header(w).value + rest) == Ok((Layout(w.keySize, w.code), rest))
  {
    var data := Header(w).value + rest;
    assert data[..8] == U64(w.keySize);
    assert data[9..] == rest;
    U64RoundTrip(w.keySize);
  }

  /** The rows of the lines packed before the first line that fails, in order. */
  function PackedRows(w: Writer, lines: seq<string>): (rows: seq<Row>)
    ensures |rows| <= |lines|
  {
    if |lines| == 0 then []
    else match ParseRow(w, lines[0])
      case Err(_) => []
      case Ok(row) => if PackRow(w, row).Ok? then [row] + PackedRows(w, lines[1..]) else []
  }

  /** A dump stops early exactly when some line fails to pack. */
  lemma {:induction false} DumpCompleteness(w: Writer, lines: seq<string>)
    ensures DumpRecords(w, lines).error.None? <==> |PackedRows(w, lines)| == |lines|
  {
    if |lines| > 0 {
      DumpCompleteness(w, lines[1..]);
    }
  }

  /** The packed rows are the parses of the leading lines, in order. */
  lemma {:induction false} PackedRowsParse(w: Writer, lines: seq<string>)
    ensures forall i :: 0 <= i < |PackedRows(w, lines)| ==> ParseRow(w, lines[i]) == Ok(PackedRows(w, lines)[i])
  {
    forall i | 0 <= i < |PackedRows(w, lines)| {
      PackedRowParses(w, lines, i);
    }
  }

  /** The `i`-th packed row is the parse of the `i`-th line. */
  lemma {:induction false} PackedRowParses(w: Writer, lines: seq<string>, i: nat)
    requires i < |PackedRows(w, lines)|
    ensures ParseRow(w, lines[i]) == Ok(PackedRows(w, lines)[i])
    decreases i
  {
    var row := ParseRow(w, lines[0]).value;
    assert PackedRows(w, lines) == [row] + PackedRows(w, lines[1..]);
    if i > 0 {
      PackedRowParses(w, lines[1..], i - 1);
      assert lines[1..][i - 1] == lines[i];
    }
  }

  lemma {:induction false} ReadDumpedRecords(w: Writer, lines: seq<string>)
    ensures ReadRecords(Layout(w.keySize, w.code), DumpRecords(w, lines).bytes)
              == ReadOut(ExpectedAll(w, PackedRows(w, lines)), None)
  {
    var layout := Layout(w.keySize, w.code);
    if |lines| > 0 {
      match ParseRow(w, lines[0])
      case Err(_) =>
      case Ok(row) =>
        if PackRow(w, row).Ok? {
          var record := PackRow(w, row).value;
          var rest := DumpRecords(w, lines[1..]);
          ReadDumpedRecords(w, lines[1..]);
          UnpackPackRow(w, row);
          var data := record + rest.bytes;
          assert DumpRecords(w, lines).bytes == data;
          assert data[..|record|] == record && data[|record|..] == rest.bytes;
          assert ExpectedAll(w, [row] + PackedRows(w, lines[1..]))
                 == [Expected(w, row)] + ExpectedAll(w, PackedRows(w, lines[1..]));
        }
    }
  }

  /** Decoding the writer's output yields one tuple per line the writer packed,
      in order, holding the line's timestamp, size and key; the reader raises
      nothing, even when the writer stopped at a line it could not pack. */
  lemma DumpThenRead(w: Writer, lines: seq<string>)
    requires w.keySize < U64_LIMIT
    ensures Read(Dump(w, lines).bytes) == ReadOut(ExpectedAll(w, PackedRows(w, lines)), None)
  {
    ReadHeaderWritten(w, DumpRecords(w, lines).bytes);
    ReadDumpedRecords(w, lines);
  }

  /** The tuple expected for a line an `int`-key writer of key size 1 parsed. */
  ghost predicate ReadsBackAs(line: string, record: Record)
  {
    var fields := Split(line, ' ');
    && |fields| >= 3
    && ParseInt(fields[0]) == Some(record.timestamp)
    && ParseInt(fields[2]) == Some(record.size)
    && record.key.IntKeys? && |record.key.values| == 1
    && ParseInt(fields[1]) == Some(record.key.values[0])
  }

  lemma ExpectedIntRow(w: Writer, line: string, row: Row)
    requires w.code == Q && ParseRow(w, line) == Ok(row)
    ensures ReadsBackAs(line, Expected(w, row))
  {
  }

  /** The script's writer, `int` keys of key size 1: when every line packs, the
      reader returns each line's timestamp, size and key, exactly. */
  lemma IntKeyRoundTrip(w: Writer, lines: seq<string>)
    requires w.code == Q && w.keySize == 1
    requires Dump(w, lines).error.None?
    ensures var records := Read(Dump(w, lines).bytes).records;
      && |records| == |lines|
      && forall i :: 0 <= i < |lines| ==> ReadsBackAs(lines[i], records[i])
  {
    DumpThenRead(w, lines);
    DumpCompleteness(w, lines);
    PackedRowsParse(w, lines);
    var rows := PackedRows(w, lines);
    var records := Read(Dump(w, lines).bytes).records;
    assert records == ExpectedAll(w, rows);
    assert DumpRecords(w, lines).error.None?;
    forall i | 0 <= i < |lines|
      ensures ReadsBackAs(lines[i], records[i])
    {
      ExpectedIntRow(w, lines[i], rows[i]);
    }
  }
}

=== FILE: trace_to_pickle.dfy ===
/** The streaming pickle writer: requests are emitted in batches of `buff_size`,
    each batch pickled as one list. Only the batch structure is modelled; the
    pickle bytes are not. */
module TraceToPickle {
  import opened Wrappers
  import opened Traces
  import Arith

  /** The batches joined back together. */
  function Flatten<T>(batches: seq<seq<T>>): seq<T>
  {
    if |batches| == 0 then [] else batches[0] + Flatten(batches[1..])
  }

  lemma {:induction false} FlattenSnoc<T>(batches: seq<seq<T>>, last: seq<T>)
    ensures Flatten(batches + [last]) == Flatten(batches) + last
  {
    if |batches| == 0 {
      assert batches + [last] == [last];
    } else {
      assert (batches + [last])[1..] == batches[1..] + [last];
      FlattenSnoc(batches[1..], last);
    }
  }

  /** An iterable whose iteration may raise: `Ok(x)` yields `x`, `Err(e)` raises `e`. */
  function FirstErrorIndex<T, E>(stream: seq<Result<T, E>>): (n: nat)
    ensures n <= |stream|
    ensures forall k :: 0 <= k < n ==> stream[k].Ok?
    ensures n < |stream| ==> stream[n].Err?
  {
    if |stream| == 0 || stream[0].Err? then 0 else 1 + FirstErrorIndex(stream[1..])
  }

  /** The values yielded before the iteration raises, or all of them. */
  function Yielded<T(==), E(==)>(stream: seq<Result<T, E>>): (xs: seq<T>)
    ensures |xs| == FirstErrorIndex(stream)
    ensures forall k :: 0 <= k < |xs| ==> stream[k] == Ok(xs[k])
  {
    var n := FirstErrorIndex(stream);
    seq(n, k requires 0 <= k < n => stream[k].value)
  }

  /** The exception the iteration raises, if it raises. */
  function Raised<T(==), E(==)>(stream: seq<Result<T, E>>): Option<E>
  {
    var n := FirstErrorIndex(stream);
    if n < |stream| then Some(stream[n].error) else None
  }

  /** The batching rule: the batches join to `xs`, none is empty, and with a
      positive `buff` every batch but the last holds exactly `buff` elements and the
      last at most `buff`; with `buff <= 0` there is at most one batch. */
  predicate Batching<T(==)>(batches: seq<seq<T>>, xs: seq<T>, buff: int)
  {
    && Flatten(batches) == xs
    && (forall i :: 0 <= i < |batches| ==> |batches[i]| > 0)
    && (buff > 0 ==> forall i :: 0 <= i < |batches| ==> |batches[i]| <= buff)
    && (buff > 0 ==> forall i :: 0 <= i < |batches| - 1 ==> |batches[i]| == buff)
    && (buff <= 0 ==> |batches| <= 1)
  }

  /** `s_dump(iterable, file, buff_size)`: collect elements into a list and emit it
      whenever its length reaches `buff_size`; at the end emit what is left, if
      anything. An exception from the iterable ends the loop at once: the batches
      emitted so far stay written and the partial list is lost. */
  method SDump<T(==), E(==)>(stream: seq<Result<T, E>>, buff: int) returns (batches: seq<seq<T>>, error: Option<E>)
    ensures error == Raised(stream)
    ensures error.None? ==> Batching(batches, Yielded(stream), buff)
    ensures error.None? && buff > 0 ==> |batches| == (|Yielded(stream)| + buff - 1) / buff
    ensures error.Some? ==> buff > 0 ==>
              && (forall i :: 0 <= i < |batches| ==> |batches[i]| == buff)
              && |batches| == |Yielded(stream)| / buff
              && Flatten(batches) == Yielded(stream)[..|batches| * buff]
    ensures error.Some? ==> buff <= 0 ==> batches == []
  {
    batches := [];
    var li: seq<T> := [];
    ghost var seen: seq<T> := [];
    var i := 0;
    while i < |stream|
      invariant 0 <= i <= |stream| && |seen| == i
      invariant forall k :: 0 <= k < i ==> stream[k] == Ok(seen[k])
      invariant Flatten(batches) + li == seen
      invariant forall k :: 0 <= k < |batches| ==> |batches[k]| > 0
      invariant buff > 0 ==> (forall k :: 0 <= k < |batches| ==> |batches[k]| == buff) && |li| < buff
      invariant buff <= 0 ==> batches == []
    {
      match stream[i]
      case Err(e) =>
        assert FirstErrorIndex(stream) == i;
        assert Yielded(stream) == seen;
        if buff > 0 {
          FlattenLength(batches, buff);
          Arith.DivModUnique(i, buff, |batches|, |li|);
        }
        return batches, Some(e);
      case Ok(x) =>
        li := li + [x];
        seen := seen + [x];
        if |li| == buff {
          FlattenSnoc(batches, li);
          batches := batches + [li];
          li := [];
        }
      i := i + 1;
    }
    assert FirstErrorIndex(stream) == |stream|;
    assert Yielded(stream) == seen;
    if buff > 0 {
      FlattenLength(batches, buff);
      CeilingCount(i, buff, |batches|, |li|);
    }
    if li != [] {
      FlattenSnoc(batches, li);
      batches := batches + [li];
    }
    error := None;
  }

  /** `b` full batches and a tail of `t` elements make `ceil(n / buff)` batches. */
  lemma CeilingCount(n: nat, buff: int, b: nat, t: nat)
    requires buff > 0 && n == b * buff + t && t < buff
    ensures (n + buff - 1) / buff == (if t == 0 then b else b + 1)
  {
    if t == 0 {
      Arith.DivModUnique(n + buff - 1, buff, b, buff - 1);
    } else {
      assert n + buff - 1 == (b + 1) * buff + (t - 1);
      Arith.DivModUnique(n + buff - 1, buff, b + 1, t - 1);
    }
  }

  lemma {:induction false} FlattenLength<T>(batches: seq<seq<T>>, buff: int)
    requires forall k :: 0 <= k < |batches| ==> |batches[k]| == buff
    ensures |Flatten(batches)| == |batches| * buff
  {
    if |batches| > 0 {
      FlattenLength(batches[1..], buff);
    }
  }

  /** The batching rule leaves no choice: two batchings of the same elements
      with the same `buff` are the same batches. */
  lemma {:induction false} BatchingUnique<T>(a: seq<seq<T>>, b: seq<seq<T>>, xs: seq<T>, buff: int)
    requires Batching(a, xs, buff) && Batching(b, xs, buff)
    ensures a == b
    decreases |xs|
  {
    if |a| == 0 || |b| == 0 {
      EmptyFlatten(a, xs);
      EmptyFlatten(b, xs);
    } else if buff <= 0 {
      assert |a| == 1 && |b| == 1;
      assert Flatten(a) == a[0] + Flatten(a[1..]) && a[1..] == [];
      assert Flatten(b) == b[0] + Flatten(b[1..]) && b[1..] == [];
      assert Flatten(a[1..]) == [] && Flatten(b[1..]) == [];
      assert a[0] == xs && b[0] == xs;
      assert a == [a[0]] && b == [b[0]];
    } else {
      var m := FirstBatchLength(a, xs, buff);
      var m' := FirstBatchLength(b, xs, buff);
      assert a[0] == xs[..m] && b[0] == xs[..m'];
      var rest := xs[m..];
      assert Batching(a[1..], rest, buff) by {
        assert forall i :: 0 <= i < |a[1..]| ==> a[1..][i] == a[i + 1];
      }
      assert Batching(b[1..], rest, buff) by {
        assert forall i :: 0 <= i < |b[1..]| ==> b[1..][i] == b[i + 1];
      }
      BatchingUnique(a[1..], b[1..], rest, buff);
      assert a == [a[0]] + a[1..] && b == [b[0]] + b[1..];
    }
  }

  /** Batches that join to nothing are no batches, and no batches join to nothing. */
  lemma EmptyFlatten<T>(batches: seq<seq<T>>, xs: seq<T>)
    requires Flatten(batches) == xs && (forall i :: 0 <= i < |batches| ==> |batches[i]| > 0)
    ensures |batches| == 0 <==> |xs| == 0
  {
    if |batches| > 0 {
      assert |xs| >= |batches[0]|;
    }
  }

  /** The first batch is the first `min(buff, |xs|)` elements. */
  lemma FirstBatchLength<T>(a: seq<seq<T>>, xs: seq<T>, buff: int) returns (m: nat)
    requires buff > 0 && Batching(a, xs, buff) && |a| > 0
    ensures m == (if |xs| < buff then |xs| else buff)
    ensures m <= |xs| && a[0] == xs[..m] && Flatten(a[1..]) == xs[m..]
  {
    m := |a[0]|;
    assert xs == a[0] + Flatten(a[1..]);
    if |a| > 1 {
      assert |a[1..][0]| > 0;
      assert |Flatten(a[1..])| > 0 by {
        assert Flatten(a[1..]) == a[1..][0] + Flatten(a[1..][1..]);
      }
    } else {
      assert Flatten(a[1..]) == [];
    }
    assert xs[..m] == a[0] && xs[m..] == Flatten(a[1..]);
  }

  /** One text line per element, parsed with `parse_tr_line`. */
  function ParsedLines(lines: seq<string>): (stream: seq<Result<Request, ParseError>>)
    ensures |stream| == |lines| && forall i :: 0 <= i < |lines| ==> stream[i] == ParseTrLine(lines[i])
  {
    seq(|lines|, i requires 0 <= i < |lines| => ParseTrLine(lines[i]))
  }

  /** `do_pickle`: batch the parsed lines of a trace file, in file order. When every
      line parses, the batches hold exactly the lines' requests; otherwise the
      first failing line's error is raised. */
  method DoPickle(lines: seq<string>, buff: int) returns (batches: seq<seq<Request>>, error: Option<ParseError>)
    ensures error.None? <==> forall i :: 0 <= i < |lines| ==> ParseTrLine(lines[i]).Ok?
    ensures error.Some? ==> exists k :: 0 <= k < |lines| && ParseTrLine(lines[k]) == Err(error.value)
                                       && forall i :: 0 <= i < k ==> ParseTrLine(lines[i]).Ok?
    ensures error.None? ==>
              && |Flatten(batches)| == |lines|
              && forall i :: 0 <= i < |lines| ==> ParseTrLine(lines[i]) == Ok(Flatten(batches)[i])
    ensures error.None? ==> Batching(batches, Flatten(batches), buff)
    ensures error.Some? ==> buff > 0 ==>
              && (forall i :: 0 <= i < |batches| ==> |batches[i]| == buff)
              && |batches| == |Yielded(ParsedLines(lines))| / buff
              && Flatten(batches) <= Yielded(ParsedLines(lines))
    ensures error.Some? ==> buff <= 0 ==> batches == []
  {
    var stream := ParsedLines(lines);
    batches, error := SDump(stream, buff);
    var n := FirstErrorIndex(stream);
    if n < |stream| {
      assert ParseTrLine(lines[n]) == Err(error.value);
      if buff > 0 {
        var ys := Yielded(stream);
        Arith.DivMulBelow(|ys|, buff);
        assert Flatten(batches) == ys[..|batches| * buff];
      }
    } else {
      var ys := Yielded(stream);
      assert error.None? && |ys| == |lines|;
      assert Flatten(batches) == ys;
    }
  }
}

=== FILE: traces.dfy ===
/** The request record, the text-trace line parser, the counters of the trace
    iterator and the rule that turns a trace path into a short name. */
module Traces {
  import opened Wrappers
  import opened Text
  import Seqs

  /** One cache request: the object's key and its size in bytes. */
  datatype Request = Request(key: int, size: int)

  /** The exceptions the line parser raises: `IndexError` for a missing field,
      `ValueError` for a field that is not a decimal integer. */
  datatype ParseError = MissingField(index: nat) | NotAnInteger(field: string)

  /** Parses `"<timestamp> <key> <size>"`. Fields are cut at single spaces; the
      timestamp is never looked at, fields after the third are ignored, and the
      checks happen in the order Python evaluates them: field 1 is indexed and
      converted before field 2 is indexed. */
  function ParseTrLine(line: string): (r: Result<Request, ParseError>)
    ensures r.Ok? <==>
              && |Split(line, ' ')| >= 3
              && ParseInt(Split(line, ' ')[1]).Some?
              && ParseInt(Split(line, ' ')[2]).Some?
    ensures r.Ok? ==>
              && ParseInt(Split(line, ' ')[1]) == Some(r.value.key)
              && ParseInt(Split(line, ' ')[2]) == Some(r.value.size)
    ensures |Split(line, ' ')| < 2 ==> r == Err(MissingField(1))
    ensures var f := Split(line, ' ');
      |f| >= 2 && ParseInt(f[1]).None? ==> r == Err(NotAnInteger(f[1]))
    ensures var f := Split(line, ' ');
      |f| == 2 && ParseInt(f[1]).Some? ==> r == Err(MissingField(2))
    ensures var f := Split(line, ' ');
      |f| >= 3 && ParseInt(f[1]).Some? && ParseInt(f[2]).None? ==> r == Err(NotAnInteger(f[2]))
  {
    var fields := Split(line, ' ');
    if |fields| < 2 then Err(MissingField(1))
    else match ParseInt(fields[1])
      case None => Err(NotAnInteger(fields[1]))
      case Some(key) =>
        if |fields| < 3 then Err(MissingField(2))
        else match ParseInt(fields[2])
          case None => Err(NotAnInteger(fields[2]))
          case Some(size) => Ok(Request(key, size))
  }

  /** The text form of one trace line, as the trace files hold it. */
  function FormatTrLine(timestamp: string, key: int, size: int): string
  {
    timestamp + " " + ShowInt(key) + " " + ShowInt(size) + "\n"
  }

  /** Parsing a formatted line returns its key and size; the timestamp is dropped. */
  lemma ParseFormatTrLine(timestamp: string, key: int, size: int)
    requires ' ' !in timestamp
    ensures ParseTrLine(FormatTrLine(timestamp, key, size)) == Ok(Request(key, size))
  {
    var f := Split(FormatTrLine(timestamp, key, size), ' ');
    SplitFormat(timestamp, key, size);
    assert ParseInt(f[1]) == Some(key) by { ParseShowInt(key); }
    assert ParseInt(f[2]) == Some(size) by { ParseShowInt(size); }
  }

  /** A formatted line splits into the timestamp, the key and the size with its newline. */
  lemma SplitFormat(timestamp: string, key: int, size: int)
    requires ' ' !in timestamp
    ensures Split(FormatTrLine(timestamp, key, size), ' ') == [timestamp, ShowInt(key), ShowInt(size) + "\n"]
  {
    var fields := [timestamp, ShowInt(key), ShowInt(size) + "\n"];
    assert Join(fields, ' ') == FormatTrLine(timestamp, key, size) by {
      JoinThree(timestamp, ShowInt(key), ShowInt(size) + "\n");
    }
    assert ' ' !in fields[2] by { NoSpaceBeforeNewline(ShowInt(size)); }
    SplitJoin(fields, ' ');
  }

  lemma JoinThree(a: string, b: string, c: string)
    ensures Join([a, b, c], ' ') == a + " " + b + " " + c
  {
    var fields := [a, b, c];
    assert fields[1..] == [b, c] && fields[1..][1..] == [c];
    assert Join([c], ' ') == c;
    assert Join([b, c], ' ') == b + " " + c;
  }

  lemma NoSpaceBeforeNewline(t: string)
    requires ' ' !in t
    ensures ' ' !in t + "\n"
  {
    var s := t + "\n";
    assert forall i :: 0 <= i < |s| ==> s[i] == (if i < |t| then t[i] else '\n');
  }

  /** Field 0 does not influence the parse: two lines that differ only in their
      first field parse alike. */
  lemma ParseIgnoresTimestamp(ts1: string, ts2: string, rest: string)
    requires ' ' !in ts1 && ' ' !in ts2
    ensures ParseTrLine(ts1 + " " + rest) == ParseTrLine(ts2 + " " + rest)
  {
    SplitPrefix(ts1, " " + rest, ' ');
    SplitPrefix(ts2, " " + rest, ' ');
    assert ts1 + (" " + rest) == ts1 + " " + rest;
    assert ts2 + (" " + rest) == ts2 + " " + rest;
    assert Split(" " + rest, ' ') == [""] + Split(rest, ' ') by {
      assert (" " + rest)[1..] == rest;
    }
  }

  /** The trace iterator over an opened file. `lines` are the file's lines, each
      with its terminator, so none is empty; `pos` is the read position. */
  datatype TraceIterator = TraceIterator(lines: seq<string>, pos: nat, totalCount: nat, totalSize: int)

  /** A freshly constructed iterator with zeroed counters. */
  function NewIterator(lines: seq<string>): TraceIterator
  {
    TraceIterator(lines, 0, 0, 0)
  }

  /** `file.readline()`: the next line, or `""` at end of file. */
  function ReadLine(it: TraceIterator): string
  {
    if it.pos < |it.lines| then it.lines[it.pos] else ""
  }

  /** What `__next__` does: hand out a request, or signal `StopIteration`. */
  datatype Step = Yield(request: Request, next: TraceIterator) | Stop

  /** `CacheTraceIterator.__next__` with the parser function it was built with.
      A request bumps `totalCount` by one and `totalSize` by its size; end of
      file stops; a parser exception propagates. */
  function Next(it: TraceIterator, parse: string -> Result<Request, ParseError>): (r: Result<Step, ParseError>)
    ensures r.Ok? && r.value.Yield? ==>
      && r.value.next.totalCount == it.totalCount + 1
      && r.value.next.totalSize == it.totalSize + r.value.request.size
      && r.value.next.lines == it.lines
      && r.value.next.pos == it.pos + 1
    ensures ReadLine(it) == "" <==> r == Ok(Stop)
    ensures ReadLine(it) != "" ==>
              && (r.Err? <==> parse(ReadLine(it)).Err?)
              && (r.Err? ==> r.error == parse(ReadLine(it)).error)
              && (r.Ok? ==> r.value.Yield? && r.value.request == parse(ReadLine(it)).value)
  {
    var line := ReadLine(it);
    if line == "" then Ok(Stop)
    else match parse(line)
      case Err(e) => Err(e)
      case Ok(request) =>
        Ok(Yield(request, TraceIterator(it.lines, it.pos + 1, it.totalCount + 1, it.totalSize + request.size)))
  }

  function Sizes(reqs: seq<Request>): (r: seq<int>)
    ensures |r| == |reqs|
    ensures forall i :: 0 <= i < |reqs| ==> r[i] == reqs[i].size
  {
    seq(|reqs|, i requires 0 <= i < |reqs| => reqs[i].size)
  }

  /** Calls `Next` until `StopIteration`, collecting the requests and the final iterator. */
  function Drain(it: TraceIterator, parse: string -> Result<Request, ParseError>): Result<(seq<Request>, TraceIterator), ParseError>
    decreases |it.lines| - it.pos
  {
    match Next(it, parse)
    case Err(e) => Err(e)
    case Ok(Stop) => Ok(([], it))
    case Ok(Yield(request, next)) =>
      match Drain(next, parse)
      case Err(e) => Err(e)
      case Ok((rest, last)) => Ok(([request] + rest, last))
  }

  /** After exhaustion the counters add up what was handed out: `totalCount` grew by
      the number of requests and `totalSize` by the sum of their sizes. */
  lemma {:induction false} DrainTotals(it: TraceIterator, parse: string -> Result<Request, ParseError>)
    requires Drain(it, parse).Ok?
    ensures var (reqs, last) := Drain(it, parse).value;
      && last.totalCount == it.totalCount + |reqs|
      && last.totalSize == it.totalSize + Seqs.Sum(Sizes(reqs))
    decreases |it.lines| - it.pos
  {
    var step := Next(it, parse);
    if step.value.Yield? {
      var next := step.value.next;
      var request := step.value.request;
      DrainTotals(next, parse);
      var (rest, last) := Drain(next, parse).value;
      Seqs.SumAppend([request.size], Sizes(rest));
      Seqs.SumSingleton(request.size);
      assert Sizes([request] + rest) == [request.size] + Sizes(rest);
    } else {
      assert Sizes([]) == [];
    }
  }

  /** The `k`-th request a drained iterator handed out is the parse of the file's
      line `k` places after the read position. */
  lemma {:induction false} DrainParses(it: TraceIterator, parse: string -> Result<Request, ParseError>, k: nat)
    requires Drain(it, parse).Ok? && k < |Drain(it, parse).value.0|
    ensures it.pos + k < |it.lines|
    ensures parse(it.lines[it.pos + k]) == Ok(Drain(it, parse).value.0[k])
    decreases k
  {
    var step := Next(it, parse);
    assert step.Ok? && step.value.Yield?;
    var next := step.value.next;
    var reqs := Drain(it, parse).value.0;
    var rest := Drain(next, parse).value.0;
    assert reqs == [step.value.request] + rest;
    if k == 0 {
      assert it.pos < |it.lines| && ReadLine(it) == it.lines[it.pos];
    } else {
      DrainParses(next, parse, k - 1);
      assert reqs[k] == rest[k - 1];
    }
  }

  /** The last `/`-separated component of a path. */
  function BaseName(path: string): (r: string)
    ensures '/' !in r && |r| <= |path| && path[|path| - |r|..] == r
    ensures |r| == |path| || path[|path| - |r| - 1] == '/'
  {
    var parts := Split(path, '/');
    LastField(path, '/');
    parts[|parts| - 1]
  }

  /** The text of a file name up to its first `.`. */
  function Stem(name: string): (r: string)
    ensures '.' !in r && |r| <= |name| && name[..|r|] == r
    ensures |r| == |name| || name[|r|] == '.'
  {
    FirstField(name, '.');
    Split(name, '.')[0]
  }

  /** `CacheTraceIterator.trace_filename`. */
  function TraceFilename(path: string): (r: string)
    ensures '/' !in r && '.' !in r
  {
    Stem(BaseName(path))
  }

  /** `start` is where the last path component begins. */
  predicate BaseStartsAt(path: string, start: int)
  {
    0 <= start <= |path| && (start == 0 || path[start - 1] == '/') && '/' !in path[start..]
  }

  /** `name` is the run of characters at `start` that ends at a `.` or at the end. */
  predicate StemAt(path: string, start: int, name: string)
    requires 0 <= start <= |path|
  {
    && start + |name| <= |path|
    && path[start..start + |name|] == name
    && '.' !in name
    && (start + |name| == |path| || path[start + |name|] == '.')
  }

  /** The short trace name, stated without splitting: the characters that follow
      the last `/` up to the first `.` after it. */
  ghost predicate NamesTrace(path: string, name: string)
  {
    exists start :: BaseStartsAt(path, start) && StemAt(path, start, name)
  }

  /** `TraceFilename` computes exactly the name `NamesTrace` describes. */
  lemma TraceFilenameCharacterised(path: string, name: string)
    ensures NamesTrace(path, name) <==> name == TraceFilename(path)
  {
    var base := BaseName(path);
    var start := |path| - |base|;
    var r := TraceFilename(path);
    assert path[start..] == base;
    assert path[start..start + |r|] == base[..|r|];
    assert BaseStartsAt(path, start) && StemAt(path, start, r);
    if NamesTrace(path, name) {
      var s :| BaseStartsAt(path, s) && StemAt(path, s, name);
      assert s == start;
      assert |name| == |r|;
    }
  }

  /** Applying the rule to its own result changes nothing. */
  lemma TraceFilenameIdempotent(path: string)
    ensures TraceFilename(TraceFilename(path)) == TraceFilename(path)
  {
    TraceFilenameFixedPoint(TraceFilename(path));
  }

  /** A name with no `/` and no `.` maps to itself. */
  lemma TraceFilenameFixedPoint(name: string)
    requires '/' !in name && '.' !in name
    ensures TraceFilename(name) == name
  {
    SplitNoSeparator(name, '/');
    SplitNoSeparator(name, '.');
  }
}

=== FILE: wrappers.dfy ===
/** Failure-carrying return values. The modelled program signals errors by raising
    Python exceptions; the model returns them as values instead. */
module Wrappers {

  /** A value that may be absent (Python's `None`). */
  datatype Option<+T> = None | Some(value: T)

  /** Either a computed value or the exception the program would raise. */
  datatype Result<+T, +E> = Ok(value: T) | Err(error: E)
}
